=== FILE: README.md ===
# Artifacts MMO client: the cooldown-gated routine engine, in Dafny

This project models the core of the Kotlin client for the Artifacts MMO game,
together with the two small formatters of its web frontend.

The client drives game characters through long-running *routines*. The only
routine in the code is gathering: walk to the nearest tile with a resource,
gather there, and repeat. Each step waits for the character's cooldown, which
the server reports after every action.

The main parts are:

- **The scheduling helper** (`TaskSchedulerExtensions.afterCooldown`). A block
  runs at once when there is no cooldown expiration. Otherwise it is handed to
  the scheduler for that instant.
- **The abstract `Routine`.** Every continuation is wrapped in a checkpoint: it
  goes on only while the character's stored `CharacterRoutine` record exists
  and carries the routine's name.
- **`GatherRoutine`.** Each step:
  1. resolves the nearest tile;
  2. stops with no tile, or once its end mark has passed;
  3. issues exactly one move or one gather;
  4. re-arms itself after the returned cooldown.
- **`RoutineService`.** It picks the first routine that accepts a request,
  replaces the character's record with that routine's record, and starts it.

Around the engine sit several services:

- `MapService`: page collection and nearest-tile choice;
- `CharacterService`: the move skip rule, cooldown test, fight/rest decision,
  persistence with version carry-over, inventory replacement and lookup;
- `ItemService`: item lookup and the crafting check;
- the skill lookups of `CharacterEntity`;
- the equipped-slot and inventory maps of `CharacterInventory`;
- the frontend's `formatRelativeTime` and `toIsoDurationFromMinutes`.

The engine runs over an explicit world:

- an integer clock;
- the character table and the inventory table;
- the routine table;
- the map listing the server returns for each content code;
- the scheduler queue of pending continuations;
- the log of remote actions issued.

The remote server is a parameter: a function from the action's position in the
log and the action to the character the server returns. The JSON form of a
request is an opaque string. Time is one integer clock, in milliseconds. It
serves both the routine's monotonic end mark and the server's cooldown
expirations.

Modules, one per file:

| module | file | what it holds |
|---|---|---|
| `Common` | common.dfy | `Option`, `Result`, errors, positions, squared distance |
| `Character` | character.dfy | `CharacterEntity`, the payload, the skill lookups |
| `Inventory` | inventory.dfy | inventory rows, `EquipmentSlot`, `CharacterInventory` |
| `Items` | items.dfy | `ItemService` |
| `Maps` | maps.dfy | `MapService` |
| `Scheduler` | scheduler.dfy | `TaskSchedulerExtensions` |
| `CharacterService` | characters.dfy | `CharacterService` |
| `Routines` | routine.dfy | the routine table and the record-handling part of `Routine` |
| `GatherRoutine` | gather.dfy | `GatherRoutine` and the checkpointed chain of `Routine` |
| `Registry` | registry.dfy | `RoutineService` |
| `RoutineProperties` | properties.dfy | properties of the engine as a whole, and a worked example |
| `Format` | format.dfy | the two frontend formatters |

Five behaviours of the code that are easy to misread:

- **The end mark.** It is checked inside each step, after the nearest tile
  has been found, not by the checkpoint.
- **Past expirations.** A callback whose expiration has already passed is
  still handed to the scheduler for that (past) instant. It is not run in the
  caller.
- **Unsupported requests.** A request no routine accepts is logged as a
  warning and the call returns normally, so `Registry.Submit` returns the
  world unchanged with no routine started.
- **Ties in the nearest-tile choice.** `minByOrNull` keeps the earliest of
  several equally near tiles.
- **The checkpoint's key.** A continuation reads the record of the name on the
  entity the server returned, which the model carries with each queued
  continuation.

## Model

| member | source | states |
|---|---|---|
| Common.SqDist | src/main/kotlin/com/artifacts/client/service/MapService.kt:52-53 | The squared distance between two positions is zero exactly when they coincide. |
| Character.SkillLevel | src/main/kotlin/com/artifacts/client/domain/CharacterEntity.kt:94-106 | Each of the eight skills reads its own level column; no skill, or another constant, gives 1. |
| Character.CraftSkillLevel | src/main/kotlin/com/artifacts/client/domain/CharacterEntity.kt:108-119 | Each of the seven craft skills reads its level column; no skill, or another constant, gives 1. |
| Character.SkillLookupsAgree | src/main/kotlin/com/artifacts/client/domain/CharacterEntity.kt:94-119 | The two overloads give the same level for every skill present in both enums. |
| Character.Location | src/main/kotlin/com/artifacts/client/domain/CharacterEntity.kt:121 | The location has the entity's x and y. |
| Inventory.FromEntity | src/main/kotlin/com/artifacts/client/domain/CharacterInventory.kt:13-36 | Every one of the 16 equipment slots is a key, there are no other keys, and each maps to the character's column for that slot. `maxItems` and `gold` are copied. |
| Inventory.SlotMapKeepsLast | src/main/kotlin/com/artifacts/client/domain/CharacterInventory.kt:41-44 | `associateBy { it.slot }` has a key exactly when some row has that slot number. The value is the last such row. |
| Inventory.FromSchema | src/main/kotlin/com/artifacts/client/domain/CharacterInventory.kt:38-45 | A payload without an inventory gives an empty map. The equipped map, `maxItems` and `gold` come from the payload's character. |
| Inventory.FromSchemaKeysBySlot | src/main/kotlin/com/artifacts/client/domain/CharacterInventory.kt:41-44 | A slot number is a key exactly when some inventory entry has it. The later duplicate wins and is tagged with the character's name. |
| Inventory.SlotNameRoundTrip | src/main/kotlin/com/artifacts/client/domain/CharacterInventory.kt:47-64 | Each slot is recovered from its column name. |
| Inventory.SlotNamesDistinct | src/main/kotlin/com/artifacts/client/domain/CharacterInventory.kt:47-64 | Different slots have different column names. |
| Inventory.SlotNameEndsInSlot | src/main/kotlin/com/artifacts/client/domain/CharacterInventory.kt:47-64 | Every column name ends in `_slot`. |
| Items.Get | src/main/kotlin/com/artifacts/client/service/ItemService.kt:35-39 | A blank code gives null without a lookup. A known code gives its item. Any other code fails, as the remote fetch does. |
| Items.GetAll | src/main/kotlin/com/artifacts/client/service/ItemService.kt:41 | It succeeds exactly when every non-blank code is known. The result then holds the items of the non-blank codes in argument order. |
| Items.FindItemsInInventory | src/main/kotlin/com/artifacts/client/service/ItemService.kt:64-65 | It keeps exactly the entries whose code equals the item, unchanged. |
| Items.QuantityInInventory | src/main/kotlin/com/artifacts/client/service/ItemService.kt:67-68 | The loop returns the order-independent sum of the quantities of entries with that code. |
| Items.QuantityOfAbsentItem | src/main/kotlin/com/artifacts/client/service/ItemService.kt:64-68 | With no entry of the code, the quantity is 0. |
| Items.CanCraft | src/main/kotlin/com/artifacts/client/service/ItemService.kt:43-62 | It fails exactly when the lookup fails, and is false for a blank code. It is true exactly when the item has a recipe, the skill level meets the required level (1 by default) and every ingredient is held in the required quantity. |
| Maps.GetAllPagesAsWritten | src/main/kotlin/com/artifacts/client/service/MapService.kt:38-50 | It makes max(pages, 1) requests, with a missing count taken as 1. The requests are page 1, then pages 1 … pages-1. The tiles are page 1 followed by pages 1 … pages-1. |
| Maps.AsWrittenDuplicatesFirstAndDropsLast | src/main/kotlin/com/artifacts/client/service/MapService.kt:38-50 | With two pages of one tile each, the code returns the first tile twice and never the second. |
| Maps.GetAllPages | src/main/kotlin/com/artifacts/client/service/MapService.kt:38-50 | Corrected loop: each page 1 … max(pages, 1) is requested once, in order, and the tiles are those pages in order. |
| Maps.AllTilesIsEveryPage | src/main/kotlin/com/artifacts/client/service/MapService.kt:38-50 | When the reported count matches the stored pages, the corrected listing is every stored page concatenated. |
| Maps.AsWrittenAgreesOnOnePage | src/main/kotlin/com/artifacts/client/service/MapService.kt:38-50 | With at most one reported page, the code's loop requests nothing more, and its listing equals the complete one. |
| Maps.FindAll | src/main/kotlin/com/artifacts/client/service/MapService.kt:28-36 | It is rejected with an illegal argument exactly when both filters are null. Otherwise it returns the corrected listing (see Left out for the difference from the code). |
| Maps.Nearest | src/main/kotlin/com/artifacts/client/service/MapService.kt:24-25 | None exactly for no tiles. Otherwise a listed tile at minimal distance, with no earlier tile at that distance. |
| Maps.FindNearest | src/main/kotlin/com/artifacts/client/service/MapService.kt:19-26 | It fails exactly without filters, and gives none exactly for an empty listing. Otherwise it gives a tile of the listing no farther than any other, and no earlier tile is equally near. |
| Scheduler.Decide | src/main/kotlin/com/artifacts/client/extensions/TaskSchedulerExtensions.kt:20-26 | Inline exactly for a null expiration; otherwise scheduled at that instant. |
| Scheduler.AfterCooldown | src/main/kotlin/com/artifacts/client/extensions/TaskSchedulerExtensions.kt:20-26 | Exactly one of the two happens: the block runs once inline (null expiration), or one task is queued at the expiration with the block not run. Earlier queue entries are kept. |
| Scheduler.PastExpirationIsScheduled | src/main/kotlin/com/artifacts/client/extensions/TaskSchedulerExtensions.kt:20-24 | An expiration already in the past is queued, not run inline. |
| Scheduler.DecideFor | src/main/kotlin/com/artifacts/client/extensions/TaskSchedulerExtensions.kt:11-18 | The entity and payload overloads use their own expiration column. The cooldown overload always schedules at its expiration. |
| CharacterService.AtDestinationIsSameLocation | src/main/kotlin/com/artifacts/client/service/CharacterService.kt:151-152 | `isAtDestination` holds exactly when the location equals the destination. |
| CharacterService.DeleteRowsOf | src/main/kotlin/com/artifacts/client/service/CharacterService.kt:125 | All of the character's rows go; every other character's rows stay, in order. |
| CharacterService.PersistInventory | src/main/kotlin/com/artifacts/client/service/CharacterService.kt:123-147 | Afterwards the character's rows are exactly the payload's entries, or none for a null or empty inventory. Other characters' rows are unchanged. |
| CharacterService.Persist | src/main/kotlin/com/artifacts/client/service/CharacterService.kt:113-121 | The payload is saved under its name. It carries the version of the passed entity, else of the stored one, else none. The inventory rows are then replaced as `persistInventory` states. |
| CharacterService.Move | src/main/kotlin/com/artifacts/client/service/CharacterService.kt:53-62 | A known character already at the destination is returned unchanged with no remote call. Otherwise the move is sent once. The returned entity is the reply, carrying the known character's version, or the stored version under the reply's name, or none. It is saved under its name, and the inventory rows are replaced by the reply's. |
| CharacterService.IsOnCooldown | src/main/kotlin/com/artifacts/client/service/CharacterService.kt:105-111 | True exactly when the character (passed or stored) has an expiration strictly after now. A missing character gives false. |
| CharacterService.Fight | src/main/kotlin/com/artifacts/client/service/CharacterService.kt:64-73 | The store afterwards is the reply persisted, before any rest decision. A rest is scheduled exactly when resting was asked for and hp is below max hp, and it is scheduled at the cooldown's expiration. |
| CharacterService.GetInventory | src/main/kotlin/com/artifacts/client/service/CharacterService.kt:44-51 | It refreshes, persisting the server's reply, exactly when no rows are stored, and otherwise changes nothing. The keys are exactly the slot numbers of the character's rows. Each value is the last of those rows with that slot number. |
| Routines.GetByCharacter | src/main/kotlin/com/artifacts/client/routine/Routine.kt:31 | In a valid table it succeeds. A found record belongs to the character. It is none exactly when no row is the character's. |
| Routines.ToStorable | src/main/kotlin/com/artifacts/client/routine/Routine.kt:24-29 | The record has the character, the routine's name, the serialized request and no id. |
| Routines.CancelRoutine | src/main/kotlin/com/artifacts/client/routine/Routine.kt:33-35 | Afterwards the character has no record and the table stays valid. Without a record it is a no-op. Other characters keep their rows, and no row is added: the table only shrinks, and the id counter is unchanged. |
| Routines.CheckpointMeaning | src/main/kotlin/com/artifacts/client/routine/Routine.kt:46-57 | The checkpoint passes exactly when a row of the character carries the routine's name. |
| Routines.StoreRoutine | src/main/kotlin/com/artifacts/client/service/RoutineService.kt:32-36 | The old record is deleted, then the new one is saved. Afterwards the character's record is the new one with the next id, other characters' records are unchanged, and the table stays valid (one record per character). |
| GatherRoutine.ContentCodeRoundTrip | src/main/kotlin/com/artifacts/client/routine/GatherRoutine.kt:63-69 | Each resource is recovered from its content code. |
| GatherRoutine.ContentCodesDistinct | src/main/kotlin/com/artifacts/client/routine/GatherRoutine.kt:63-69 | The three content codes are pairwise distinct. |
| GatherRoutine.Target | src/main/kotlin/com/artifacts/client/routine/GatherRoutine.kt:33-35 | The tile aimed at is none exactly for an empty listing. Otherwise it is a listed tile no farther from the character than any other, and no earlier tile is equally near. |
| GatherRoutine.Act | src/main/kotlin/com/artifacts/client/routine/GatherRoutine.kt:46-52 | Exactly one action is issued. It is a move to the tile's coordinates exactly when the character stands elsewhere, and a gather exactly when it stands on the tile. The server's reply is persisted: the returned entity is the reply, saved under its name and carrying the stored version when that name is the character's, the other characters are unchanged, and the inventory rows are replaced as `persistInventory` states. |
| GatherRoutine.Step | src/main/kotlin/com/artifacts/client/routine/GatherRoutine.kt:32-52 | The step stops, leaving the world unchanged, exactly when the character is missing, no tile exists, or the end mark has passed. Otherwise it acts as `Act` states on the nearest tile, persisting the reply. |
| GatherRoutine.Run | src/main/kotlin/com/artifacts/client/routine/GatherRoutine.kt:32-56 | A step that stops leaves the world unchanged. After a step that acts, the chain re-arms itself on the entity the step returned. A cooldown queues exactly one continuation at that expiration, keyed on the returned entity's name and nothing else. With no cooldown, the next step runs at once if that name's record passes the checkpoint, and otherwise nothing more happens. The chain never changes the clock, the routine table or the listings, and only appends to the log and the queue. |
| GatherRoutine.AfterCooldown | src/main/kotlin/com/artifacts/client/routine/Routine.kt:46-57 | A non-null expiration queues exactly the given continuation at that instant, and nothing else changes. A null expiration whose owner fails the checkpoint changes nothing. |
| GatherRoutine.Checkpointed | src/main/kotlin/com/artifacts/client/routine/Routine.kt:47-56 | Without a record of the continuation's owner carrying the routine's name, nothing happens. With one, the step runs. |
| GatherRoutine.Deadline | src/main/kotlin/com/artifacts/client/routine/GatherRoutine.kt:24 | No duration gives no end mark. Otherwise the end mark is the duration after now. |
| GatherRoutine.Start | src/main/kotlin/com/artifacts/client/routine/GatherRoutine.kt:23-26 | A duration of zero or less changes nothing. |
| GatherRoutine.Fire | src/main/kotlin/com/artifacts/client/routine/Routine.kt:47-56 | Firing a queued continuation advances the clock to its instant and removes it from the queue. If the owner's record, read at firing time, fails the checkpoint, nothing else changes. |
| Registry.FirstAccepting | src/main/kotlin/com/artifacts/client/service/RoutineService.kt:22-24 | None exactly when no registered routine accepts the request. Otherwise the index of an accepting routine with none accepting before it. |
| Registry.Submit | src/main/kotlin/com/artifacts/client/service/RoutineService.kt:20-30 | With no accepting routine, the world is unchanged and nothing is started. Otherwise exactly the first accepting routine is started. Its record (name, serialized request, next id) is what `get` returns afterwards and passes the checkpoint. Other characters' records are untouched, the table stays valid, and the start only appends to the log and the queue. |
| RoutineProperties.NoRecordNoStep | src/main/kotlin/com/artifacts/client/routine/Routine.kt:48-55 | A continuation whose owner (the name on the returned entity) has no record only leaves the queue. |
| RoutineProperties.OtherRoutineNoStep | src/main/kotlin/com/artifacts/client/routine/Routine.kt:49-52 | A continuation whose owner's record names another routine only leaves the queue. |
| RoutineProperties.MatchingRecordRunsStep | src/main/kotlin/com/artifacts/client/routine/Routine.kt:48-53 | With a matching record, whatever its serialized request, the step runs. |
| RoutineProperties.ChainUsesCooldownHelper | src/main/kotlin/com/artifacts/client/routine/Routine.kt:46-47 | The routine's `afterCooldown` is the scheduler helper applied to the checkpointed block. |
| RoutineProperties.SameKindKeepsCheckpoint | src/main/kotlin/com/artifacts/client/service/RoutineService.kt:33-35 | Storing a gather record with any request keeps a gather chain of that character passing its checkpoint. |
| RoutineProperties.OtherKindFailsCheckpoint | src/main/kotlin/com/artifacts/client/service/RoutineService.kt:33-35 | Storing another routine's record makes the gather chain's checkpoint fail. |
| RoutineProperties.CancelledChainStops | src/main/kotlin/com/artifacts/client/routine/Routine.kt:33-35 | After `cancelRoutine`, every pending continuation of the character fires without acting. |
| RoutineProperties.ResubmitKeepsChain | src/main/kotlin/com/artifacts/client/service/RoutineService.kt:20-36 | Resubmitting a gather request keeps the character's queued continuations in place, and they still pass the checkpoint. |
| RoutineProperties.FirstStepSkipsCheckpoint | src/main/kotlin/com/artifacts/client/routine/GatherRoutine.kt:23-26 | The first step of `start` acts even when the character has no record. |
| RoutineProperties.InlineStepActs | src/main/kotlin/com/artifacts/client/routine/GatherRoutine.kt:32-52 | A step of a stored character with a tile and no end mark acts, issuing exactly one action. Against a server replying for that character with no cooldown, the returned entity has the character's name and no cooldown, and the character stays stored. The routine table, the listings and the clock are unchanged. |
| RoutineProperties.UnrecordedStartStopsAtCheckpoint | src/main/kotlin/com/artifacts/client/routine/Routine.kt:46-57 | Started without a record, against a server whose replies carry no cooldown, the chain issues exactly one action and stops at the first checkpoint. |
| RoutineProperties.InlineRunContinues | src/main/kotlin/com/artifacts/client/routine/Routine.kt:46-56 | With the record in place, a step whose reply carries no cooldown passes the checkpoint and runs the next step at once. |
| RoutineProperties.InlineRunActs | src/main/kotlin/com/artifacts/client/routine/GatherRoutine.kt:32-56 | A chain whose first step acts logs at least that action, whatever follows. |
| RoutineProperties.RecordedInlineChainActsTwice | src/main/kotlin/com/artifacts/client/routine/GatherRoutine.kt:32-56 | With the record in place, against a server whose replies carry no cooldown, the chain acts at least twice. |
| RoutineProperties.SubmitStoresBeforeStarting | src/main/kotlin/com/artifacts/client/service/RoutineService.kt:26-27 | The record is stored before the routine starts: through the service, the same chain passes its first checkpoint and acts at least twice. The stored table is the one the world keeps. |
| RoutineProperties.ElapsedDeadlineIssuesNothing | src/main/kotlin/com/artifacts/client/routine/GatherRoutine.kt:40-45 | A submission with a duration of zero or less writes the record but issues no action and queues nothing. |
| RoutineProperties.NoTileIssuesNothing | src/main/kotlin/com/artifacts/client/routine/GatherRoutine.kt:35-39 | Without a tile of the resource, `start` changes nothing. |
| RoutineProperties.HeroStep | src/main/kotlin/com/artifacts/client/routine/GatherRoutine.kt:32-56 | In the worked example a step moves when the character is away from the tile and gathers when on it. Either way the next step is queued at the reply's cooldown. |
| RoutineProperties.HeroSubmitStarts | src/main/kotlin/com/artifacts/client/service/RoutineService.kt:22-27 | In the worked example, the gather routine accepts the copper request, and the chain runs on the table that holds the stored record. |
| RoutineProperties.HeroSubmit | src/main/kotlin/com/artifacts/client/service/RoutineService.kt:20-30 | Hero1 at (0, 0) with copper at (3, 4): the submission stores the gather record, logs exactly a move to (3, 4) and queues one continuation at the move's cooldown. |
| RoutineProperties.HeroRunsOnTable | src/main/kotlin/com/artifacts/client/routine/GatherRoutine.kt:32-56 | From the worked example's start, whatever the routine table, the chain logs one move to (3, 4) and queues one continuation of Hero1 at the move's cooldown. |
| RoutineProperties.HeroFire | src/main/kotlin/com/artifacts/client/routine/Routine.kt:46-57 | In the worked example, a queued continuation of Hero1 fired while the gather record stands, with Hero1 on the tile, passes the checkpoint, logs exactly one gather and queues exactly the next continuation. Applied to the world the submission leaves, and then to the world that firing leaves, this gives the gathers that follow the move. |
| Format.NatToStringRoundTrip | frontend/src/App.tsx:54 | The printed value reads back as the number. |
| Format.RoundDiv | frontend/src/App.tsx:32-35 | `Math.round(n / d)` is the integer nearest n / d, with halves rounded up. |
| Format.Magnitude | frontend/src/App.tsx:32-51 | The unit is chosen by the cascading thresholds 60 s, 60 min, 24 h. The value is the rounded count in that unit: seconds below 60, any other unit at least 1. |
| Format.QuantityShape | frontend/src/App.tsx:53 | The plural `s` ends the phrase exactly when the value is not 1. |
| Format.FormatRelativeTime | frontend/src/App.tsx:24-55 | `-` exactly for an invalid date. A target before now gives exactly `<phrase> ago`. A target at or after now gives exactly `in <phrase>`. |
| Format.RelativeTimeSymmetric | frontend/src/App.tsx:28-30 | Targets d ahead and d behind use the same phrase. |
| Format.Round | frontend/src/pages/Routines.tsx:9 | `Math.round` gives the nearest integer, with halves rounded up. |
| Format.ToIsoDurationFromMinutes | frontend/src/pages/Routines.tsx:7-10 | Nothing exactly for null, NaN or a value that is not positive. Otherwise `PT<n>M`, where n is the input rounded to the nearest integer, printed in decimal without leading zeros. The digits read back as that value. |
| Format.WholeMinutes | frontend/src/pages/Routines.tsx:9 | A positive whole number of minutes gives exactly `PT<m>M`. |
| Format.UnderHalfAMinute | frontend/src/pages/Routines.tsx:8-9 | A positive input below 0.5 gives `PT0M`, not nothing. |

## Left out

- **Remote API and HTTP layer.** The server's replies are a parameter. The
  controllers are thin pass-throughs and are not modelled.
- **Spring persistence.** Not modelled: repositories, transactions, and the
  `@Version` increment that `save` performs. Tables are maps or row sequences.
  The routine table's database-assigned ids are a counter.
- **The character mapper.** `CharacterMapper` is not part of this model. The
  payload is taken as the entity's columns plus the optional inventory list.
- **The remaining `CharacterService` operations.** `rest`, `equip`, `unequip`,
  `forceRefresh` and `getAll` are a remote call followed by `persist`, which
  is modelled. `gather` is modelled inside the routine step.
- **`CharacterService.gatherAt`** is not modelled. It moves the character, then
  hands one gather to the scheduler after the moved entity's cooldown, with no
  routine record and no checkpoint.
- CharacterService.PersistInventory: the item preloading calls are not
  modelled. A failing item fetch there would abort the whole persist.
- **Item caching.** Not modelled: `ItemService` storing fetched items in the
  item table. The table and the remote catalogue are one `catalog` map.
- Items.QuantityInInventory: Kotlin's `sumOf` on `Int` wraps around at 32 bits.
  The model sums unbounded integers, because inventory quantities stay far
  below 2^31.
- **Logging** is not modelled.
- **Concurrency.** Not modelled: the scheduler's thread pool, and races between
  a routine's steps and manual actions on the same character. `Fire` fires any
  queued continuation the caller picks.
- **Time.** The monotonic time source and `OffsetDateTime` expirations are one
  integer clock. Actions take no time.
- GatherRoutine.Run: a chain of continuations run inline (a null cooldown) is
  followed for at most `fuel` further steps, because the code recurses without
  bound there.
- GatherRoutine.Step: a character missing from the table makes the code's step
  fail with an exception. The model stops the step without any action. For a
  queued step this matches the scheduler dropping the failed task. The first
  step is different: it runs inside `RoutineService.start`, after the record
  is stored, so the exception reaches the caller. In that case the model's
  `Registry.Submit` returns success with the record stored and no action.
- GatherRoutine.Act: the remote `move` and `gathering` calls are assumed to
  succeed: the server is a total function from action to reply. In the code,
  an error reply (a full inventory, say) makes the call throw.
- GatherRoutine.Step: because the remote action never fails in the model, a
  chain only ends at a checkpoint, an end mark or a missing tile. In the code,
  a throwing move or gather ends the step before its `afterCooldown`. A queued
  chain then stops without a continuation and leaves its routine record in
  place. On the first step the exception reaches the caller of
  `RoutineService.start` after the record is stored. This is how a gather
  routine without a duration ends in practice.
- **Floating-point distance.** The square root in `MapService.distance` is
  replaced by the squared integer distance, which orders tiles the same way.
- **Page size.** The page size of 50 is the server's concern. A listing is
  given by its reported page count and its pages.
- **The world's map listing** uses the corrected page collection
  (`Maps.GetAllPages`). The code as written is modelled separately (see
  Findings). `Maps.AsWrittenAgreesOnOnePage` shows the two listings agree when
  at most one page is reported.
- Maps.FindAll: returns the corrected listing (`Maps.AllTiles`, every page
  once). The code's `findAll` returns the as-written `getAllPages` result
  (`Maps.AsWrittenTiles`), which differs when two or more pages are reported.
- Maps.FindNearest: searches the corrected listing, so with two or more
  reported pages it can choose a tile the code never sees. The code would
  pick from page 1 twice and miss the last page.
- GatherRoutine.Target: aims at the nearest tile of the corrected listing, for
  the same reason as `Maps.FindNearest`. The steps, runs and submissions built
  on it inherit this.
- Items.FindItemsInInventory: returns a map keyed by slot number. The code
  returns a list in the inventory map's iteration order. The only consumer
  sums the quantities, so the order does not matter.
- **Bean discovery and request serialization.** Spring's bean discovery is a
  fixed sequence of routine kinds, and `GatherRoutine` is the only kind the code
  has. Jackson serialization of requests is an opaque string.
- **Request durations.** The Kotlin `Duration` of a request (JSON-decoded) is
  an integer number of clock units.
- **Relative-time input.** `formatRelativeTime` takes an instant in
  milliseconds or none for an invalid date. Not modelled: parsing date
  strings, and floating-point error in `diffMs / 1000` beyond 2^53 ms.
- Format.ToIsoDurationFromMinutes: the input is an exact real. Not modelled:
  double rounding, and JavaScript's exponent notation for rounded values of
  10^21 and more.

## Findings

| source | as written | input that shows it | evidently intended | confidence | as-written member | corrected member |
|---|---|---|---|---|---|---|
| src/main/kotlin/com/artifacts/client/service/MapService.kt:38-50 | The first request fetches page 1. The loop then starts again at page 1 and stops before `pages`. | A listing reporting 2 pages, tile a on page 1 and tile b on page 2: the result is [a, a], and b is never requested. | Request each page 1 … pages exactly once, so the result is every tile once, in page order. | not executed | Maps.AsWrittenDuplicatesFirstAndDropsLast | Maps.AllTilesIsEveryPage |

=== FILE: character.dfy ===
/**
 The stored character (`CharacterEntity`): the fields the client logic
 reads, the two skill-level lookups and the location accessor.
 */
module Character {
  import opened Common

  /** The gathering and crafting skills of the API's `Skill` enum. */
  datatype Skill =
    | Weaponcrafting | Gearcrafting | Jewelrycrafting | Cooking
    | Woodcutting | Mining | Alchemy | Fishing
    | OtherSkill  // any further constant of the generated enum; the lookup's `else` branch

  /** The API's `CraftSkill` enum: the crafting skills, without fishing. */
  datatype CraftSkill =
    | CraftWeaponcrafting | CraftGearcrafting | CraftJewelrycrafting | CraftCooking
    | CraftWoodcutting | CraftMining | CraftAlchemy
    | OtherCraftSkill  // any further constant of the generated enum

  /** The eight `*_level` columns of a character. */
  datatype SkillLevels = SkillLevels(
    mining: int, woodcutting: int, fishing: int, weaponcrafting: int,
    gearcrafting: int, jewelrycrafting: int, cooking: int, alchemy: int)

  /** The sixteen equipment columns (`weapon_slot` … `bag_slot`). */
  datatype Equipment = Equipment(
    weapon: string, rune: string, shield: string, helmet: string,
    bodyArmor: string, legArmor: string, boots: string, ring1: string,
    ring2: string, amulet: string, artifact1: string, artifact2: string,
    artifact3: string, utility1: string, utility2: string, bag: string)

  /**
   A stored character. Combat statistics, experience counters and task
   fields are carried by the source but never read by the modelled logic.
   `cooldownExpiration` is an instant on the model's integer clock.
   */
  datatype CharacterEntity = CharacterEntity(
    name: string,
    gold: int,
    hp: int,
    maxHp: int,
    levels: SkillLevels,
    x: int,
    y: int,
    equipment: Equipment,
    inventoryMaxItems: int,
    cooldownExpiration: Option<int>,
    version: Option<int>)

  /** One inventory entry of the API's character payload (`InventorySlot`). */
  datatype InventorySlot = InventorySlot(slot: int, code: string, quantity: int)

  /**
   The API's `CharacterSchema`: the same columns as the entity (the mapper
   between them is not part of this model and is taken as field-by-field)
   plus the optional inventory list.
   */
  datatype CharacterSchema = CharacterSchema(character: CharacterEntity, inventory: Option<seq<InventorySlot>>)

  /** `CharacterSchema.toEntity()`: a fresh entity carries no version yet. */
  function ToEntity(s: CharacterSchema): (e: CharacterEntity)
    ensures e.name == s.character.name && e.version.None?
    ensures e.cooldownExpiration == s.character.cooldownExpiration
    ensures e.x == s.character.x && e.y == s.character.y
  {
    s.character.(version := None)
  }

  /** `getSkillLevel(Skill?)`: the matching level column, 1 for null or an unlisted skill. */
  function SkillLevel(c: CharacterEntity, skill: Option<Skill>): (level: int)
    ensures skill.None? ==> level == 1
    ensures skill.Some? ==> level == LevelColumn(c, skill.value).GetOr(1)
  {
    match skill
    case None => 1
    case Some(s) =>
      match s
      case Weaponcrafting => c.levels.weaponcrafting
      case Gearcrafting => c.levels.gearcrafting
      case Jewelrycrafting => c.levels.jewelrycrafting
      case Cooking => c.levels.cooking
      case Woodcutting => c.levels.woodcutting
      case Mining => c.levels.mining
      case Alchemy => c.levels.alchemy
      case Fishing => c.levels.fishing
      case OtherSkill => 1
  }

  /** `getSkillLevel(CraftSkill?)`: the matching level column, 1 for null or an unlisted skill. */
  function CraftSkillLevel(c: CharacterEntity, skill: Option<CraftSkill>): (level: int)
    ensures skill.None? ==> level == 1
    ensures skill.Some? && AsSkill(skill.value).None? ==> level == 1
    ensures skill.Some? && AsSkill(skill.value).Some? ==>
      && LevelColumn(c, AsSkill(skill.value).value).Some?
      && level == LevelColumn(c, AsSkill(skill.value).value).value
  {
    match skill
    case None => 1
    case Some(s) =>
      match s
      case CraftWeaponcrafting => c.levels.weaponcrafting
      case CraftGearcrafting => c.levels.gearcrafting
      case CraftJewelrycrafting => c.levels.jewelrycrafting
      case CraftCooking => c.levels.cooking
      case CraftWoodcutting => c.levels.woodcutting
      case CraftMining => c.levels.mining
      case CraftAlchemy => c.levels.alchemy
      case OtherCraftSkill => 1
  }

  /** The `Skill` constant with the same name as a `CraftSkill` constant, if any. */
  function AsSkill(s: CraftSkill): Option<Skill> {
    match s
    case CraftWeaponcrafting => Some(Weaponcrafting)
    case CraftGearcrafting => Some(Gearcrafting)
    case CraftJewelrycrafting => Some(Jewelrycrafting)
    case CraftCooking => Some(Cooking)
    case CraftWoodcutting => Some(Woodcutting)
    case CraftMining => Some(Mining)
    case CraftAlchemy => Some(Alchemy)
    case OtherCraftSkill => None
  }

  /** The level column a named skill reads; independent of either lookup. */
  function LevelColumn(c: CharacterEntity, s: Skill): Option<int> {
    match s
    case Mining => Some(c.levels.mining)
    case Woodcutting => Some(c.levels.woodcutting)
    case Fishing => Some(c.levels.fishing)
    case Weaponcrafting => Some(c.levels.weaponcrafting)
    case Gearcrafting => Some(c.levels.gearcrafting)
    case Jewelrycrafting => Some(c.levels.jewelrycrafting)
    case Cooking => Some(c.levels.cooking)
    case Alchemy => Some(c.levels.alchemy)
    case OtherSkill => None
  }

  /** The two overloads agree on every skill both enums name. */
  lemma SkillLookupsAgree(c: CharacterEntity, s: CraftSkill)
    requires AsSkill(s).Some?
    ensures CraftSkillLevel(c, Some(s)) == SkillLevel(c, AsSkill(s))
  {
  }

  /** `getLocation()`. */
  function Location(c: CharacterEntity): (p: Pos)
    ensures p.x == c.x && p.y == c.y
  {
    Pos(c.x, c.y)
  }
}

=== FILE: characters.dfy ===
/**
 The character service (`CharacterService`): the stored characters and
 their inventory rows, and the decisions taken around remote actions. The
 remote server's reply to an action is a parameter; the model records
 whether the remote call was issued.
 */
module CharacterService {
  import opened Common
  import opened Character
  import opened Inventory
  import opened Scheduler

  /** The character table (keyed by name) and the inventory-slot table (rows). */
  datatype Store = Store(characters: map<string, CharacterEntity>, slots: seq<InventorySlotEntity>)

  /** `isAtDestination`: both coordinates equal. */
  predicate IsAtDestination(c: CharacterEntity, dest: Pos) {
    c.x == dest.x && c.y == dest.y
  }

  lemma AtDestinationIsSameLocation(c: CharacterEntity, dest: Pos)
    ensures IsAtDestination(c, dest) <==> Location(c) == dest
  {
  }

  /** `findAllByCharacter`: the rows of one character, in table order. */
  function RowsOf(rows: seq<InventorySlotEntity>, name: string): (r: seq<InventorySlotEntity>)
    ensures forall x :: x in r <==> x in rows && x.character == name
    ensures |r| <= |rows|
  {
    if rows == [] then []
    else if rows[0].character == name then [rows[0]] + RowsOf(rows[1..], name)
    else RowsOf(rows[1..], name)
  }

  /** `deleteByCharacter`: every row of the character removed, the others kept in order. */
  function DeleteRowsOf(rows: seq<InventorySlotEntity>, name: string): (r: seq<InventorySlotEntity>)
    ensures forall x :: x in r <==> x in rows && x.character != name
    ensures forall other :: other != name ==> RowsOf(r, other) == RowsOf(rows, other)
    ensures RowsOf(r, name) == []
  {
    if rows == [] then []
    else if rows[0].character == name then DeleteRowsOf(rows[1..], name)
    else [rows[0]] + DeleteRowsOf(rows[1..], name)
  }

  lemma {:induction false} RowsOfAppend(a: seq<InventorySlotEntity>, b: seq<InventorySlotEntity>, name: string)
    ensures RowsOf(a + b, name) == RowsOf(a, name) + RowsOf(b, name)
  {
    if a != [] {
      assert (a + b)[1..] == a[1..] + b;
      RowsOfAppend(a[1..], b, name);
    } else {
      assert a + b == b;
    }
  }

  lemma {:induction false} RowsOfOwnRows(rows: seq<InventorySlotEntity>, name: string)
    requires forall i :: 0 <= i < |rows| ==> rows[i].character == name
    ensures RowsOf(rows, name) == rows
  {
    if rows != [] {
      RowsOfOwnRows(rows[1..], name);
    }
  }

  lemma {:induction false} RowsOfForeignRows(rows: seq<InventorySlotEntity>, name: string)
    requires forall i :: 0 <= i < |rows| ==> rows[i].character != name
    ensures RowsOf(rows, name) == []
  {
    if rows != [] {
      RowsOfForeignRows(rows[1..], name);
    }
  }

  /**
   `persistInventory`: all the character's rows are deleted, then the
   payload's entries (if any) are saved as the character's new rows.
   Other characters' rows are untouched.
   */
  function PersistInventory(rows: seq<InventorySlotEntity>, s: CharacterSchema): (r: seq<InventorySlotEntity>)
    ensures s.inventory.None? || s.inventory == Some([]) ==> RowsOf(r, s.character.name) == []
    ensures s.inventory.Some? ==> RowsOf(r, s.character.name) == SlotsToEntities(s.inventory.value, s.character.name)
    ensures forall other :: other != s.character.name ==> RowsOf(r, other) == RowsOf(rows, other)
  {
    var name := s.character.name;
    var kept := DeleteRowsOf(rows, name);
    var added := match s.inventory
      case None => []
      case Some(slots) => SlotsToEntities(slots, name);
    RowsOfAppend(kept, added, name);
    RowsOfOwnRows(added, name);
    forall other | other != name
      ensures RowsOf(kept + added, other) == RowsOf(rows, other)
    {
      RowsOfAppend(kept, added, other);
      RowsOfForeignRows(added, other);
    }
    kept + added
  }

  /**
   `persist(character, existing)`: the payload saved as the stored entity,
   carrying the version of `existing`, or of the stored entity when no
   `existing` is passed; then its inventory rows are replaced.
   */
  function Persist(st: Store, s: CharacterSchema, existing: Option<CharacterEntity>): (r: (Store, CharacterEntity))
    ensures var (st', saved) := r;
      && saved.name == s.character.name
      && saved == s.character.(version := saved.version)
      && (existing.Some? ==> saved.version == existing.value.version)
      && (existing.None? && s.character.name in st.characters ==> saved.version == st.characters[s.character.name].version)
      && (existing.None? && s.character.name !in st.characters ==> saved.version.None?)
      && st'.characters == st.characters[saved.name := saved]
      && st'.slots == PersistInventory(st.slots, s)
  {
    var entity := ToEntity(s);
    var existingChar := match existing
      case Some(e) => Some(e)
      case None => if s.character.name in st.characters then Some(st.characters[s.character.name]) else None;
    var updated := entity.(version := match existingChar case Some(e) => e.version case None => None);
    (Store(st.characters[updated.name := updated], PersistInventory(st.slots, s)), updated)
  }

  /** The outcome of `move`: the store afterwards, the character returned, and whether the API was called. */
  datatype MoveOutcome = MoveOutcome(store: Store, character: CharacterEntity, called: bool)

  /**
   `move(name, destination, entity)`: a character known (passed in, or else
   stored) and already at the destination is returned as it is, without a
   remote call; otherwise the move is sent once and its reply persisted.
   */
  function Move(st: Store, name: string, dest: Pos, entity: Option<CharacterEntity>, reply: CharacterSchema): (r: MoveOutcome)
    ensures var known := if entity.Some? then entity else if name in st.characters then Some(st.characters[name]) else None;
      && (known.Some? && IsAtDestination(known.value, dest) ==> r == MoveOutcome(st, known.value, false))
      && (!(known.Some? && IsAtDestination(known.value, dest)) ==>
            && r.called
            && r.character == reply.character.(version := r.character.version)
            && (known.Some? ==> r.character.version == known.value.version)
            && (known.None? && reply.character.name in st.characters ==>
                  r.character.version == st.characters[reply.character.name].version)
            && (known.None? && reply.character.name !in st.characters ==> r.character.version.None?)
            && r.store.characters == st.characters[reply.character.name := r.character]
            && r.store.slots == PersistInventory(st.slots, reply))
  {
    var character := if entity.Some? then entity else if name in st.characters then Some(st.characters[name]) else None;
    if character.Some? && IsAtDestination(character.value, dest) then
      MoveOutcome(st, character.value, false)
    else
      var (st', saved) := Persist(st, reply, character);
      MoveOutcome(st', saved, true)
  }

  /**
   `isOnCooldown(name, entity)`: true exactly when the character (passed in,
   or else stored) has an expiration and `now` is strictly before it.
   */
  function IsOnCooldown(st: Store, name: string, entity: Option<CharacterEntity>, now: int): (b: bool)
    ensures entity.Some? ==> (b <==> entity.value.cooldownExpiration.Some? && now < entity.value.cooldownExpiration.value)
    ensures entity.None? && name !in st.characters ==> !b
    ensures entity.None? && name in st.characters ==>
      (b <==> st.characters[name].cooldownExpiration.Some? && now < st.characters[name].cooldownExpiration.value)
  {
    var character := if entity.Some? then entity else if name in st.characters then Some(st.characters[name]) else None;
    match character
    case None => false
    case Some(c) =>
      match c.cooldownExpiration
      case None => false
      case Some(t) => now < t
  }

  /** The reply to a fight: the character afterwards and the fight's cooldown. */
  datatype FightReply = FightReply(character: CharacterSchema, cooldown: CooldownSchema)

  /**
   `fight(name, restAfterFight)`: the reply is persisted; a rest is handed
   to the scheduler at the cooldown's expiration exactly when resting was
   asked for and the character is below its maximum hp.
   */
  function Fight(st: Store, reply: FightReply, restAfterFight: bool): (r: (Store, Option<Dispatch>))
    ensures r.1.Some? <==> restAfterFight && reply.character.character.hp < reply.character.character.maxHp
    ensures r.1.Some? ==> r.1.value == ScheduleAt(reply.cooldown.expiration)
    ensures reply.character.character.name in r.0.characters
    ensures r.0 == Persist(st, reply.character, None).0
  {
    var (st', _) := Persist(st, reply.character, None);
    var c := reply.character.character;
    if restAfterFight && c.hp < c.maxHp then (st', Some(DecideFor(OfCooldown(reply.cooldown))))
    else (st', None)
  }

  /** The slot map of one character's rows holds exactly their slot numbers, each with a row of theirs. */
  lemma SlotMapKeysAreRowSlots(rows: seq<InventorySlotEntity>, name: string)
    requires forall x :: x in rows ==> x.character == name
    ensures forall k :: k in SlotMap(rows) <==> exists x :: x in rows && x.slot == k
    ensures forall k :: k in SlotMap(rows) ==> SlotMap(rows)[k].character == name
  {
    forall k
      ensures k in SlotMap(rows) <==> exists x :: x in rows && x.slot == k
      ensures k in SlotMap(rows) ==> SlotMap(rows)[k].character == name
    {
      SlotMapKeepsLast(rows, k);
      if exists x :: x in rows && x.slot == k {
        var x :| x in rows && x.slot == k;
        var i :| 0 <= i < |rows| && rows[i] == x;
        assert LastWithSlot(rows, k) >= i;
      }
    }
  }

  /** The outcome of `getInventory`: the slot map, the store afterwards and whether a refresh was fetched. */
  datatype InventoryOutcome = InventoryOutcome(slots: map<int, InventorySlotEntity>, store: Store, refreshed: bool)

  /**
   `getInventory(name)`: the character's rows keyed by slot number; when
   none are stored the character is refreshed once (`latest` is the
   server's reply) and the rows are read again.
   */
  function GetInventory(st: Store, name: string, latest: CharacterSchema): (r: InventoryOutcome)
    ensures r.refreshed <==> RowsOf(st.slots, name) == []
    ensures !r.refreshed ==> r.store == st
    ensures forall k :: k in r.slots <==> exists x :: x in RowsOf(r.store.slots, name) && x.slot == k
    ensures forall k :: k in r.slots ==> r.slots[k].slot == k && r.slots[k].character == name
    ensures forall k :: k in r.slots ==>
      var rows := RowsOf(r.store.slots, name);
      LastWithSlot(rows, k) >= 0 && r.slots[k] == rows[LastWithSlot(rows, k)]
    ensures r.refreshed ==> r.store == Persist(st, latest, None).0
  {
    var rows := RowsOf(st.slots, name);
    var st' := if rows == [] then Persist(st, latest, None).0 else st;
    var rows' := RowsOf(st'.slots, name);
    var slots := SlotMap(rows');
    SlotMapKeysMatchEntries(rows');
    SlotMapKeysAreRowSlots(rows', name);
    assert forall k :: k in slots ==> LastWithSlot(rows', k) >= 0 && slots[k] == rows'[LastWithSlot(rows', k)] by {
      forall k | k in slots
        ensures LastWithSlot(rows', k) >= 0 && slots[k] == rows'[LastWithSlot(rows', k)]
      {
        SlotMapKeepsLast(rows', k);
      }
    }
    InventoryOutcome(slots, st', rows == [])
  }
}

=== FILE: common.dfy ===
/**
 Shared vocabulary of the model: optional values (Kotlin's nullable types),
 results carrying an error (Kotlin exceptions), board positions and the
 squared distance used to rank map tiles.
 */
module Common {

  /** A Kotlin `T?` value. */
  datatype Option<+T> = None | Some(value: T) {
    function GetOr(default: T): T {
      match this
      case Some(v) => v
      case None => default
    }
  }

  /** The exceptions the modelled code can raise. */
  datatype Error =
    | IllegalArgument(message: string)   // MapService.findAll without a filter
    | ItemNotFound(code: string)         // remote item lookup of an unknown code
    | CharacterNotFound(name: string)    // dereferencing a missing character
    | DuplicateRecord(character: string) // getByCharacter over two rows
    | UnsupportedRequest(typeName: string)

  datatype Result<+R> = Success(value: R) | Failure(error: Error) {
    predicate IsFailure() {
      Failure?
    }

    function PropagateFailure<U>(): Result<U>
      requires Failure?
    {
      Failure(error)
    }

    function Extract(): R
      requires Success?
    {
      value
    }
  }

  /** A map coordinate (the API's `DestinationSchema`). */
  datatype Pos = Pos(x: int, y: int)

  /**
   The square of the Euclidean distance. The source ranks tiles by
   `sqrt(dx^2 + dy^2)`; since the square root is monotone on non-negative
   numbers, ranking by the square gives the same order.
   */
  function SqDist(a: Pos, b: Pos): (d: nat)
    ensures d == 0 <==> a == b
  {
    var dx := b.x - a.x;
    var dy := b.y - a.y;
    SquareIsZeroOnlyAtZero(dx);
    SquareIsZeroOnlyAtZero(dy);
    dx * dx + dy * dy
  }

  lemma SquareIsZeroOnlyAtZero(n: int)
    ensures n * n >= 0
    ensures n * n == 0 <==> n == 0
  {
    if n < 0 {
      assert n * n == (-n) * (-n);
    }
  }
}

=== FILE: format.dfy ===
/**
 The two formatters of the web frontend: the relative-time phrase shown
 next to cooldowns (`formatRelativeTime`) and the ISO-8601 duration sent
 with a gather request (`toIsoDurationFromMinutes`).

 Instants are integer milliseconds; `Math.round(x)` is `floor(x + 1/2)`.
 */
module Format {
  import opened Common

  /** A decimal digit's character. */
  function DigitChar(d: nat): (c: char)
    requires d < 10
    ensures '0' <= c <= '9'
  {
    "0123456789"[d]
  }

  /** A digit character's value. */
  function DigitValue(c: char): (d: nat)
    requires '0' <= c <= '9'
    ensures d < 10
  {
    (c as int - '0' as int) as nat
  }

  lemma DigitRoundTrip(d: nat)
    requires d < 10
    ensures DigitValue(DigitChar(d)) == d
  {
  }

  predicate IsDigits(s: string) {
    forall i :: 0 <= i < |s| ==> '0' <= s[i] <= '9'
  }

  /** How JavaScript prints a non-negative integer (below 10^21): its decimal digits, no leading zero. */
  function NatToString(n: nat): (s: string)
    ensures |s| >= 1 && IsDigits(s)
    ensures s[0] == '0' ==> n == 0
  {
    if n < 10 then [DigitChar(n)] else NatToString(n / 10) + [DigitChar(n % 10)]
  }

  /** The value of a string of decimal digits. */
  function ParseNat(s: string): nat
    requires IsDigits(s)
  {
    if s == [] then 0 else ParseNat(s[..|s| - 1]) * 10 + DigitValue(s[|s| - 1])
  }

  /** Reading the printed digits gives the number back. */
  lemma {:induction false} NatToStringRoundTrip(n: nat)
    ensures ParseNat(NatToString(n)) == n
  {
    var s := NatToString(n);
    if n < 10 {
      DigitRoundTrip(n);
      assert s[..|s| - 1] == [];
    } else {
      NatToStringRoundTrip(n / 10);
      DigitRoundTrip(n % 10);
      assert s[..|s| - 1] == NatToString(n / 10);
    }
  }

  /** Different numbers print differently. */
  lemma NatToStringInjective(a: nat, b: nat)
    requires NatToString(a) == NatToString(b)
    ensures a == b
  {
    NatToStringRoundTrip(a);
    NatToStringRoundTrip(b);
  }

  /** `Math.round(n / d)` for a non-negative quotient: the integer nearest `n / d`, halves rounded up. */
  function RoundDiv(n: nat, d: nat): (r: nat)
    requires d > 0
    ensures 2 * r * d <= 2 * n + d < 2 * r * d + 2 * d
  {
    var r := (2 * n + d) / (2 * d);
    assert 2 * n + d == r * (2 * d) + (2 * n + d) % (2 * d);
    r
  }

  datatype TimeUnit = Second | Minute | Hour | Day

  function UnitName(u: TimeUnit): string {
    match u
    case Second => "second"
    case Minute => "minute"
    case Hour => "hour"
    case Day => "day"
  }

  /** The cascade of rounded counts, each rounded from the previous one. */
  function Seconds(ms: nat): nat { RoundDiv(ms, 1000) }
  function Minutes(ms: nat): nat { RoundDiv(Seconds(ms), 60) }
  function Hours(ms: nat): nat { RoundDiv(Minutes(ms), 60) }
  function Days(ms: nat): nat { RoundDiv(Hours(ms), 24) }

  /**
   The value and unit shown for a distance of `ms` milliseconds: seconds
   under a minute, minutes under an hour, hours under a day, days beyond.
   */
  function Magnitude(ms: nat): (r: (nat, TimeUnit))
    ensures r.1 == Second <==> Seconds(ms) < 60
    ensures r.1 == Minute <==> Seconds(ms) >= 60 && Minutes(ms) < 60
    ensures r.1 == Hour <==> Seconds(ms) >= 60 && Minutes(ms) >= 60 && Hours(ms) < 24
    ensures r.1 == Day <==> Seconds(ms) >= 60 && Minutes(ms) >= 60 && Hours(ms) >= 24
    ensures r.1 == Second ==> r.0 == Seconds(ms) && r.0 < 60
    ensures r.1 != Second ==> r.0 >= 1
    ensures r.1 == Minute ==> r.0 == Minutes(ms)
    ensures r.1 == Hour ==> r.0 == Hours(ms)
    ensures r.1 == Day ==> r.0 == Days(ms)
  {
    var sec := Seconds(ms);
    var min := Minutes(ms);
    var hr := Hours(ms);
    var day := Days(ms);
    if sec < 60 then (sec, Second)
    else if min < 60 then (min, Minute)
    else if hr < 24 then (hr, Hour)
    else (day, Day)
  }

  /** `value unit[s]`: the plural `s` is left off exactly for the value 1. */
  function Quantity(value: nat, u: TimeUnit): string {
    NatToString(value) + " " + UnitName(u) + (if value == 1 then "" else "s")
  }

  /** The phrase starts with the value's digits and ends in `s` exactly when the value is not 1. */
  lemma QuantityShape(value: nat, u: TimeUnit)
    ensures var q := Quantity(value, u);
      && |q| >= 3 && '0' <= q[0] <= '9'
      && (q[|q| - 1] == 's' <==> value != 1)
  {
    var q := Quantity(value, u);
    assert q[0] == NatToString(value)[0];
  }

  /** The distance between two instants. */
  function Distance(t: int, now: int): nat {
    if t < now then now - t else t - now
  }

  /**
   `formatRelativeTime(target, now)`: `-` for an invalid date (`None`);
   otherwise the distance phrase, followed by ` ago` for a target before
   now and preceded by `in ` otherwise, equality included.
   */
  function FormatRelativeTime(target: Option<int>, now: int): (s: string)
    ensures s == "-" <==> target.None?
    ensures target.Some? ==>
      var m := Magnitude(Distance(target.value, now));
      var q := Quantity(m.0, m.1);
      && (target.value < now <==> s == q + " ago")
      && (target.value >= now <==> s == "in " + q)
  {
    match target
    case None => "-"
    case Some(t) =>
      var diff := t - now;
      var past := diff < 0;
      var m := Magnitude(if past then -diff else diff);
      var phrase := Quantity(m.0, m.1);
      QuantityShape(m.0, m.1);
      if past then
        assert phrase + " ago" != "in " + phrase by {
          assert (phrase + " ago")[0] == phrase[0];
        }
        phrase + " ago"
      else
        assert "in " + phrase != phrase + " ago" by {
          assert ("in " + phrase)[0] == 'i';
          assert (phrase + " ago")[0] == phrase[0];
        }
        "in " + phrase
  }

  /** A target `d` ahead and one `d` behind are described by the same value and unit. */
  lemma RelativeTimeSymmetric(now: int, d: nat)
    requires d > 0
    ensures exists q :: FormatRelativeTime(Some(now + d), now) == "in " + q && FormatRelativeTime(Some(now - d), now) == q + " ago"
  {
    var m := Magnitude(d);
    var q := Quantity(m.0, m.1);
    assert Distance(now + d, now) == d && Distance(now - d, now) == d;
    assert FormatRelativeTime(Some(now + d), now) == "in " + q;
  }

  /** `toIsoDurationFromMinutes`' argument: null or undefined, NaN, a finite number, or an infinity. */
  datatype NumberInput = Absent | NotANumber | Finite(r: real) | PositiveInfinity | NegativeInfinity

  /** `Math.round` on a finite number: the nearest integer, halves rounded up. */
  function Round(r: real): (n: int)
    ensures n as real - 1.0 / 2.0 <= r < n as real + 1.0 / 2.0
  {
    (r + 1.0 / 2.0).Floor
  }

  /**
   `toIsoDurationFromMinutes(min)`: nothing for null, NaN or a value that is
   not positive; otherwise `PT<round(min)>M`. JavaScript prints the rounded
   infinity as `Infinity`.
   */
  function ToIsoDurationFromMinutes(m: NumberInput): (d: Option<string>)
    ensures d.None? <==> m.Absent? || m.NotANumber? || m.NegativeInfinity? || (m.Finite? && m.r <= 0.0)
    ensures m.Finite? && m.r > 0.0 ==>
      && d.Some? && |d.value| >= 4 && d.value[..2] == "PT" && d.value[|d.value| - 1] == 'M'
      && IsDigits(d.value[2..|d.value| - 1])
      && ParseNat(d.value[2..|d.value| - 1]) as real - 1.0 / 2.0 <= m.r < ParseNat(d.value[2..|d.value| - 1]) as real + 1.0 / 2.0
    ensures m.Finite? && m.r > 0.0 ==> d.value[2] == '0' ==> d.value == "PT0M"
    ensures m.Finite? && m.r > 0.0 ==> d == Some("PT" + NatToString(Round(m.r)) + "M")
    ensures m == PositiveInfinity ==> d == Some("PTInfinityM")
  {
    match m
    case Absent => None
    case NotANumber => None
    case NegativeInfinity => None
    case PositiveInfinity => Some("PTInfinityM")
    case Finite(r) =>
      if r <= 0.0 then None
      else
        var n := Round(r);
        var digits := NatToString(n);
        var d := "PT" + digits + "M";
        NatToStringRoundTrip(n);
        assert d[2..|d| - 1] == digits;
        Some(d)
  }

  /** A positive whole number of minutes is sent as exactly that many. */
  lemma WholeMinutes(n: nat)
    requires n > 0
    ensures ToIsoDurationFromMinutes(Finite(n as real)) == Some("PT" + NatToString(n) + "M")
  {
    assert Round(n as real) == n;
  }

  /** A positive input below half a minute still yields a duration, of zero minutes. */
  lemma UnderHalfAMinute(r: real)
    requires 0.0 < r < 1.0 / 2.0
    ensures ToIsoDurationFromMinutes(Finite(r)) == Some("PT0M")
  {
    assert Round(r) == 0;
    assert NatToString(0) == "0";
    assert "PT" + "0" + "M" == "PT0M";
  }
}

=== FILE: gather.dfy ===
/**
 The gathering routine (`GatherRoutine`) and the cooldown-gated chain the
 abstract `Routine` builds around it, over an explicit world: the integer
 clock, the character and inventory tables, the routine table, the map
 listings the server answers per content code, the scheduler queue of
 pending continuations and the log of remote actions issued.

 The remote server is a parameter: `server(k, a)` is its reply (the
 character afterwards) to the `k`-th action of the log, `a`.
 */
module GatherRoutine {
  import opened Common
  import opened Character
  import opened Maps
  import opened Scheduler
  import opened Routines
  import opened CharacterService

  /** `getRoutineName()`: the name stored in the routine's records. */
  const RoutineName: string := "gather"

  /** `GatherResource`: the resources the routine can gather. */
  datatype GatherResource = Copper | Gold | AshTree

  /** The map content code of each resource. */
  function ContentCode(r: GatherResource): string {
    match r
    case Copper => "copper_rocks"
    case Gold => "gold_rocks"
    case AshTree => "ash_tree"
  }

  /** The resource with a given content code, if any. */
  function ResourceWithCode(code: string): (r: Option<GatherResource>)
    ensures r.Some? ==> ContentCode(r.value) == code
  {
    if code == "copper_rocks" then Some(Copper)
    else if code == "gold_rocks" then Some(Gold)
    else if code == "ash_tree" then Some(AshTree)
    else None
  }

  /** Each resource is recovered from its content code. */
  lemma ContentCodeRoundTrip(r: GatherResource)
    ensures ResourceWithCode(ContentCode(r)) == Some(r)
  {
  }

  /** No two resources share a content code. */
  lemma ContentCodesDistinct(a: GatherResource, b: GatherResource)
    requires a != b
    ensures ContentCode(a) != ContentCode(b)
  {
    ContentCodeRoundTrip(a);
    ContentCodeRoundTrip(b);
  }

  /** `GatherRoutineReq`: the resource and an optional duration in clock units. */
  datatype GatherRequest = GatherRequest(resource: GatherResource, duration: Option<int>)

  /** What the recursive `gather` call carries: the character, the request and the end mark. */
  datatype Session = Session(character: string, req: GatherRequest, deadline: Option<int>)

  /**
   A continuation handed to the scheduler: `owner` is the name whose record
   the checkpoint reads (the returned entity's name), `session` the
   `gather` call it resumes.
   */
  datatype Continuation = Continuation(owner: string, session: Session)

  /** A remote action the routine issues. */
  datatype Action = MoveTo(character: string, x: int, y: int) | Gathering(character: string)

  datatype World = World(
    clock: int,
    store: Store,
    routines: RoutineTable,
    maps: map<string, MapPages>,
    queue: seq<Pending<Continuation>>,
    log: seq<Action>)

  /** The listing the server returns for a content code; a code it does not know has no tiles. */
  function Listing(w: World, code: string): MapPages {
    if code in w.maps then w.maps[code] else MapPages(None, [])
  }

  /**
   The tile a step aims at: the nearest tile of the resource's listing to
   the stored character's location.
   */
  function Target(w: World, s: Session): (t: Option<MapTile>)
    requires s.character in w.store.characters
    ensures var here := Location(w.store.characters[s.character]);
      var tiles := AllTiles(Listing(w, ContentCode(s.req.resource)));
      && (t.None? <==> tiles == [])
      && (t.Some? ==> t.value in tiles && forall u :: u in tiles ==> Dist(here, u) >= Dist(here, t.value))
    ensures var here := Location(w.store.characters[s.character]);
      var tiles := AllTiles(Listing(w, ContentCode(s.req.resource)));
      t.Some? ==> exists j :: (
        && 0 <= j < |tiles| && tiles[j] == t.value
        && forall k :: 0 <= k < j ==> Dist(here, tiles[k]) > Dist(here, t.value))
  {
    var here := Location(w.store.characters[s.character]);
    match FindNearest(here, Some(ContentCode(s.req.resource)), None, Listing(w, ContentCode(s.req.resource)))
    case Success(tile) => tile
    case Failure(_) => None
  }

  /** The end mark has passed: `hasPassedNow()` once the clock reaches it. */
  predicate Expired(s: Session, clock: int) {
    s.deadline.Some? && clock >= s.deadline.value
  }

  /** The outcome of one step: it stopped, or it acted and returned the character the server sent back. */
  datatype StepOutcome = Halted(world: World) | Acted(world: World, entity: CharacterEntity)

  /** The frame of a step that acted: only the store changed, and exactly one action was logged. */
  ghost predicate OneAction(w: World, w': World) {
    && w'.clock == w.clock && w'.routines == w.routines && w'.maps == w.maps && w'.queue == w.queue
    && |w'.log| == |w.log| + 1 && w'.log[..|w.log|] == w.log
  }

  /**
   A step on `tile` that acted: exactly one action was logged and nothing
   but the store changed otherwise; the action is a move to the tile's
   coordinates exactly when the character stood elsewhere and a gather
   exactly when it stood on the tile; the server's reply was persisted (the
   character saved under the reply's name, keeping the stored version, and
   the inventory rows replaced) and is the entity returned, whose name and
   cooldown the continuation uses.
   */
  ghost predicate ActedOn(w: World, s: Session, tile: MapTile, server: (nat, Action) -> CharacterSchema, w': World, entity: CharacterEntity)
    requires s.character in w.store.characters
  {
    && OneAction(w, w')
    && var here := Location(w.store.characters[s.character]);
      var action := w'.log[|w.log|];
      && (action == MoveTo(s.character, tile.x, tile.y) <==> here != TilePos(tile))
      && (action == Gathering(s.character) <==> here == TilePos(tile))
      && entity == server(|w.log|, action).character.(version := entity.version)
      && (entity.name == s.character ==> entity.version == w.store.characters[s.character].version)
      && w'.store.characters == w.store.characters[entity.name := entity]
      && w'.store.slots == PersistInventory(w.store.slots, server(|w.log|, action))
  }

  /**
   The action part of the step: a move to the tile when the character is
   elsewhere, a gather when it stands on it; the reply is persisted.
   */
  function Act(w: World, s: Session, tile: MapTile, server: (nat, Action) -> CharacterSchema): (o: StepOutcome)
    requires s.character in w.store.characters
    ensures o.Acted? && ActedOn(w, s, tile, server, o.world, o.entity)
  {
    var here := Location(w.store.characters[s.character]);
    if here.x != tile.x || here.y != tile.y then
      var action := MoveTo(s.character, tile.x, tile.y);
      var moved := Move(w.store, s.character, Pos(tile.x, tile.y), None, server(|w.log|, action));
      Acted(w.(store := moved.store, log := w.log + [action]), moved.character)
    else
      var action := Gathering(s.character);
      var persisted := Persist(w.store, server(|w.log|, action), None);
      Acted(w.(store := persisted.0, log := w.log + [action]), persisted.1)
  }

  /**
   The private `gather` step up to its `afterCooldown`: read the stored
   character (a missing one makes the step fail, modelled as a stop), find
   the nearest tile and stop without one, stop once the end mark has
   passed, then move to the tile when elsewhere or gather when on it.
   */
  function Step(w: World, s: Session, server: (nat, Action) -> CharacterSchema): (o: StepOutcome)
    ensures o.Halted? ==> o.world == w
    ensures o.Halted? <==>
      s.character !in w.store.characters || Target(w, s).None? || Expired(s, w.clock)
    ensures o.Acted? ==> ActedOn(w, s, Target(w, s).value, server, o.world, o.entity)
  {
    if s.character !in w.store.characters then Halted(w)
    else
      match Target(w, s)
      case None => Halted(w)
      case Some(tile) =>
        if Expired(s, w.clock) then Halted(w)
        else Act(w, s, tile, server)
  }

  /**
   What the engine never changes and how it grows the rest: the clock,
   routine table and listings stay, the log and the queue only get longer.
   */
  ghost predicate Extends(w: World, w': World) {
    && w'.clock == w.clock && w'.routines == w.routines && w'.maps == w.maps
    && |w.log| <= |w'.log| && w'.log[..|w.log|] == w.log
    && |w.queue| <= |w'.queue| && w'.queue[..|w.queue|] == w.queue
  }

  lemma ExtendsTransitive(w: World, w1: World, w2: World)
    requires Extends(w, w1) && Extends(w1, w2)
    ensures Extends(w, w2)
  {
    assert w2.log[..|w.log|] == w2.log[..|w1.log|][..|w.log|];
    assert w2.queue[..|w.queue|] == w2.queue[..|w1.queue|][..|w.queue|];
  }

  /**
   `gather(character, req, endMark)`: one step, then `afterCooldown` on the
   returned entity, keyed on that entity's name. An inline continuation (no
   cooldown) is followed for at most `fuel` further steps.
   */
  function Run(w: World, s: Session, server: (nat, Action) -> CharacterSchema, fuel: nat): (r: World)
    ensures Extends(w, r)
    ensures Step(w, s, server).Halted? ==> r == w
    ensures var o := Step(w, s, server);
      o.Acted? && o.entity.cooldownExpiration.Some? ==>
        r == o.world.(queue := o.world.queue + [Pending(o.entity.cooldownExpiration.value, Continuation(o.entity.name, s))])
    ensures var o := Step(w, s, server);
      o.Acted? && o.entity.cooldownExpiration.None? && !Checkpoint(w.routines, o.entity.name, RoutineName) ==> r == o.world
    ensures var o := Step(w, s, server);
      o.Acted? && o.entity.cooldownExpiration.None? && Checkpoint(w.routines, o.entity.name, RoutineName) ==>
        r == (if fuel == 0 then o.world else Run(o.world, s, server, fuel - 1))
    decreases fuel, 1
  {
    match Step(w, s, server)
    case Halted(_) => w
    case Acted(w', entity) =>
      var r := AfterCooldown(w', Continuation(entity.name, s), entity.cooldownExpiration, server, fuel);
      ExtendsTransitive(w, w', r);
      r
  }

  /**
   `Routine.afterCooldown` with the `gather` block: a null expiration runs
   the checkpointed block at once, any other expiration queues exactly that
   continuation at that instant.
   */
  function AfterCooldown(w: World, c: Continuation, expiration: Option<int>, server: (nat, Action) -> CharacterSchema, fuel: nat): (r: World)
    ensures Extends(w, r)
    ensures expiration.Some? ==> r == w.(queue := w.queue + [Pending(expiration.value, c)])
    ensures expiration.None? && !Checkpoint(w.routines, c.owner, RoutineName) ==> r == w
    decreases fuel, 0
  {
    match Decide(expiration)
    case ScheduleAt(t) => w.(queue := w.queue + [Pending(t, c)])
    case RunInline => if fuel == 0 then w else Checkpointed(w, c, server, fuel - 1)
  }

  /**
   The checkpointed block: the step runs only when the owner's record,
   read now, exists and carries this routine's name.
   */
  function Checkpointed(w: World, c: Continuation, server: (nat, Action) -> CharacterSchema, fuel: nat): (r: World)
    ensures Extends(w, r)
    ensures !Checkpoint(w.routines, c.owner, RoutineName) ==> r == w
    ensures Checkpoint(w.routines, c.owner, RoutineName) ==> r == Run(w, c.session, server, fuel)
    decreases fuel, 2
  {
    if Checkpoint(w.routines, c.owner, RoutineName) then Run(w, c.session, server, fuel) else w
  }

  /** The end mark of a request started at `clock`: `markNow() + duration`, or none. */
  function Deadline(req: GatherRequest, clock: int): (d: Option<int>)
    ensures d.None? <==> req.duration.None?
    ensures d.Some? ==> d.value - clock == req.duration.value
  {
    match req.duration
    case None => None
    case Some(duration) => Some(clock + duration)
  }

  /** `start(character, req)`: the first step runs at once, without a checkpoint. */
  function Start(w: World, character: string, req: GatherRequest, server: (nat, Action) -> CharacterSchema, fuel: nat): (r: World)
    ensures Extends(w, r)
    ensures req.duration.Some? && req.duration.value <= 0 ==> r == w
  {
    Run(w, Session(character, req, Deadline(req, w.clock)), server, fuel)
  }

  /**
   The scheduler firing the `i`-th pending continuation: the clock moves to
   its instant (never backwards), the entry leaves the queue, and the
   checkpointed block runs against the routine table as it is now.
   */
  function Fire(w: World, i: nat, server: (nat, Action) -> CharacterSchema, fuel: nat): (r: World)
    requires i < |w.queue|
    ensures var p := w.queue[i];
      var w1 := w.(clock := Max(w.clock, p.at), queue := w.queue[..i] + w.queue[i + 1..]);
      && Extends(w1, r)
      && (!Checkpoint(w.routines, p.task.owner, RoutineName) ==> r == w1)
  {
    var p := w.queue[i];
    Checkpointed(w.(clock := Max(w.clock, p.at), queue := w.queue[..i] + w.queue[i + 1..]), p.task, server, fuel)
  }
}

=== FILE: inventory.dfy ===
/**
 The inventory view of a character (`CharacterInventory`) and the stored
 inventory row (`InventorySlotEntity`).
 */
module Inventory {
  import opened Common
  import opened Character

  /** A stored inventory row; `id` is assigned by the database. */
  datatype InventorySlotEntity = InventorySlotEntity(character: string, slot: int, code: string, quantity: int, id: Option<int>)

  /** `InventorySlot.toEntity(character)`. */
  function SlotToEntity(s: InventorySlot, character: string): (e: InventorySlotEntity)
    ensures e.character == character && e.slot == s.slot && e.code == s.code && e.quantity == s.quantity
    ensures e.id.None?
  {
    InventorySlotEntity(character, s.slot, s.code, s.quantity, None)
  }

  /** The list mapped row by row through `SlotToEntity`. */
  function SlotsToEntities(slots: seq<InventorySlot>, character: string): (r: seq<InventorySlotEntity>)
    ensures |r| == |slots|
    ensures forall i :: 0 <= i < |slots| ==> r[i] == SlotToEntity(slots[i], character)
  {
    if slots == [] then [] else SlotsToEntities(slots[..|slots| - 1], character) + [SlotToEntity(slots[|slots| - 1], character)]
  }

  datatype EquipmentSlot =
    | Weapon | Rune | Shield | Helmet | BodyArmor | LegArmor | Boots | Ring1
    | Ring2 | Amulet | Artifact1 | Artifact2 | Artifact3 | Utility1 | Utility2 | Bag

  /** The sixteen slots in declaration order. */
  const AllSlots: seq<EquipmentSlot> :=
    [Weapon, Rune, Shield, Helmet, BodyArmor, LegArmor, Boots, Ring1,
     Ring2, Amulet, Artifact1, Artifact2, Artifact3, Utility1, Utility2, Bag]

  /** The column name of a slot without its `_slot` suffix. */
  function SlotStem(e: EquipmentSlot): string {
    match e
    case Weapon => "weapon"
    case Rune => "rune"
    case Shield => "shield"
    case Helmet => "helmet"
    case BodyArmor => "body_armor"
    case LegArmor => "leg_armor"
    case Boots => "boots"
    case Ring1 => "ring1"
    case Ring2 => "ring2"
    case Amulet => "amulet"
    case Artifact1 => "artifact1"
    case Artifact2 => "artifact2"
    case Artifact3 => "artifact3"
    case Utility1 => "utility1"
    case Utility2 => "utility2"
    case Bag => "bag"
  }

  /** `EquipmentSlot.slot`: the column name of the slot. */
  function SlotName(e: EquipmentSlot): string {
    SlotStem(e) + "_slot"
  }

  /** The equipment column a slot is filled from. */
  function Equipped(eq: Equipment, e: EquipmentSlot): string {
    match e
    case Weapon => eq.weapon
    case Rune => eq.rune
    case Shield => eq.shield
    case Helmet => eq.helmet
    case BodyArmor => eq.bodyArmor
    case LegArmor => eq.legArmor
    case Boots => eq.boots
    case Ring1 => eq.ring1
    case Ring2 => eq.ring2
    case Amulet => eq.amulet
    case Artifact1 => eq.artifact1
    case Artifact2 => eq.artifact2
    case Artifact3 => eq.artifact3
    case Utility1 => eq.utility1
    case Utility2 => eq.utility2
    case Bag => eq.bag
  }

  datatype CharacterInventory = CharacterInventory(
    inventory: map<int, InventorySlotEntity>,
    equipped: map<EquipmentSlot, string>,
    maxItems: int,
    gold: int)

  /** The secondary constructor from a stored character and its slot map. */
  function FromEntity(c: CharacterEntity, inventory: map<int, InventorySlotEntity>): (inv: CharacterInventory)
    ensures inv.inventory == inventory
    ensures forall e: EquipmentSlot :: e in inv.equipped && inv.equipped[e] == Equipped(c.equipment, e)
    ensures forall e :: e in inv.equipped ==> e in AllSlots
    ensures inv.maxItems == c.inventoryMaxItems && inv.gold == c.gold
  {
    var equipped := map e | e in AllSlots :: Equipped(c.equipment, e);
    assert forall e: EquipmentSlot :: e in AllSlots by {
      forall e: EquipmentSlot
        ensures e in AllSlots
      {
        EveryEquipmentSlotIsListed(e);
      }
    }
    CharacterInventory(inventory, equipped, c.inventoryMaxItems, c.gold)
  }

  lemma EveryEquipmentSlotIsListed(e: EquipmentSlot)
    ensures e in AllSlots
  {
    match e
    case Weapon => assert AllSlots[0] == e;
    case Rune => assert AllSlots[1] == e;
    case Shield => assert AllSlots[2] == e;
    case Helmet => assert AllSlots[3] == e;
    case BodyArmor => assert AllSlots[4] == e;
    case LegArmor => assert AllSlots[5] == e;
    case Boots => assert AllSlots[6] == e;
    case Ring1 => assert AllSlots[7] == e;
    case Ring2 => assert AllSlots[8] == e;
    case Amulet => assert AllSlots[9] == e;
    case Artifact1 => assert AllSlots[10] == e;
    case Artifact2 => assert AllSlots[11] == e;
    case Artifact3 => assert AllSlots[12] == e;
    case Utility1 => assert AllSlots[13] == e;
    case Utility2 => assert AllSlots[14] == e;
    case Bag => assert AllSlots[15] == e;
  }

  /**
   `associateBy { it.slot }`: rows keyed by slot number, a later row with
   the same slot replacing an earlier one.
   */
  function SlotMap(rows: seq<InventorySlotEntity>): map<int, InventorySlotEntity>
  {
    if rows == [] then map[]
    else
      var last := rows[|rows| - 1];
      SlotMap(rows[..|rows| - 1])[last.slot := last]
  }

  /** The index of the last row carrying slot `k`, or -1. */
  function LastWithSlot(rows: seq<InventorySlotEntity>, k: int): (i: int)
    ensures -1 <= i < |rows|
    ensures i >= 0 ==> rows[i].slot == k
    ensures forall j :: i < j < |rows| ==> rows[j].slot != k
  {
    if rows == [] then -1
    else if rows[|rows| - 1].slot == k then |rows| - 1
    else LastWithSlot(rows[..|rows| - 1], k)
  }

  /** Every slot number present is a key, and its entry is the last row with that slot. */
  lemma {:induction false} SlotMapKeepsLast(rows: seq<InventorySlotEntity>, k: int)
    ensures k in SlotMap(rows) <==> LastWithSlot(rows, k) >= 0
    ensures k in SlotMap(rows) ==> SlotMap(rows)[k] == rows[LastWithSlot(rows, k)]
  {
    if rows != [] {
      SlotMapKeepsLast(rows[..|rows| - 1], k);
    }
  }

  /** Every key of the slot map is the slot number of its own entry. */
  lemma {:induction false} SlotMapKeysMatchEntries(rows: seq<InventorySlotEntity>)
    ensures forall k :: k in SlotMap(rows) ==> SlotMap(rows)[k].slot == k
  {
    forall k | k in SlotMap(rows)
      ensures SlotMap(rows)[k].slot == k
    {
      SlotMapKeepsLast(rows, k);
    }
  }

  /**
   The primary constructor from the API payload: the character's columns,
   and its inventory keyed by slot number (an empty map for a null list).
   */
  function FromSchema(s: CharacterSchema): (inv: CharacterInventory)
    ensures s.inventory.None? ==> inv.inventory == map[]
    ensures forall e: EquipmentSlot :: e in inv.equipped && inv.equipped[e] == Equipped(s.character.equipment, e)
    ensures inv.maxItems == s.character.inventoryMaxItems && inv.gold == s.character.gold
  {
    var inventory := match s.inventory
      case None => map[]
      case Some(slots) => SlotMap(SlotsToEntities(slots, s.character.name));
    var c := ToEntity(s);
    assert c.equipment == s.character.equipment;
    FromEntity(c, inventory)
  }

  /**
   With a payload inventory, slot `k` is a key exactly when some entry has
   slot `k`, and it holds the last such entry, owned by the character.
   */
  lemma {:induction false} FromSchemaKeysBySlot(s: CharacterSchema, k: int)
    requires s.inventory.Some?
    ensures k in FromSchema(s).inventory <==> exists i :: 0 <= i < |s.inventory.value| && s.inventory.value[i].slot == k
    ensures k in FromSchema(s).inventory ==>
      exists i :: 0 <= i < |s.inventory.value| && FromSchema(s).inventory[k] == SlotToEntity(s.inventory.value[i], s.character.name)
        && forall j :: i < j < |s.inventory.value| ==> s.inventory.value[j].slot != k
  {
    var slots := s.inventory.value;
    var rows := SlotsToEntities(slots, s.character.name);
    SlotMapKeepsLast(rows, k);
    var i := LastWithSlot(rows, k);
    if exists i' :: 0 <= i' < |slots| && slots[i'].slot == k {
      var i' :| 0 <= i' < |slots| && slots[i'].slot == k;
      assert rows[i'].slot == k;
    }
    if i >= 0 {
      assert forall j :: i < j < |slots| ==> slots[j].slot != k by {
        forall j | i < j < |slots|
          ensures slots[j].slot != k
        {
          assert rows[j].slot == slots[j].slot;
        }
      }
    }
  }

  /** The slot whose stem is `stem`, if any. */
  function StemNamed(stem: string): (r: Option<EquipmentSlot>)
    ensures r.Some? ==> SlotStem(r.value) == stem
  {
    if stem == "weapon" then Some(Weapon)
    else if stem == "rune" then Some(Rune)
    else if stem == "shield" then Some(Shield)
    else if stem == "helmet" then Some(Helmet)
    else if stem == "body_armor" then Some(BodyArmor)
    else if stem == "leg_armor" then Some(LegArmor)
    else if stem == "boots" then Some(Boots)
    else if stem == "ring1" then Some(Ring1)
    else if stem == "ring2" then Some(Ring2)
    else if stem == "amulet" then Some(Amulet)
    else if stem == "artifact1" then Some(Artifact1)
    else if stem == "artifact2" then Some(Artifact2)
    else if stem == "artifact3" then Some(Artifact3)
    else if stem == "utility1" then Some(Utility1)
    else if stem == "utility2" then Some(Utility2)
    else if stem == "bag" then Some(Bag)
    else None
  }

  /** The slot whose column name is `name`, if any: the inverse of `SlotName`. */
  function SlotNamed(name: string): (r: Option<EquipmentSlot>)
    ensures r.Some? ==> SlotName(r.value) == name
  {
    if |name| >= 5 && name[|name| - 5..] == "_slot" then
      var r := StemNamed(name[..|name| - 5]);
      assert r.Some? ==> name == SlotStem(r.value) + "_slot" by {
        if r.Some? {
          assert name == name[..|name| - 5] + name[|name| - 5..];
        }
      }
      r
    else None
  }

  /** Each slot is recovered from its stem. */
  lemma StemRoundTrip(e: EquipmentSlot)
    ensures StemNamed(SlotStem(e)) == Some(e)
  {
    match e
    case Weapon =>
    case Rune =>
    case Shield =>
    case Helmet =>
    case BodyArmor =>
    case LegArmor =>
    case Boots =>
    case Ring1 =>
    case Ring2 =>
    case Amulet =>
    case Artifact1 =>
    case Artifact2 =>
    case Artifact3 =>
    case Utility1 =>
    case Utility2 =>
    case Bag =>
  }

  /** Reading a slot back from its column name gives the slot itself. */
  lemma SlotNameRoundTrip(e: EquipmentSlot)
    ensures SlotNamed(SlotName(e)) == Some(e)
  {
    var n := SlotName(e);
    assert n[|n| - 5..] == "_slot";
    assert n[..|n| - 5] == SlotStem(e);
    StemRoundTrip(e);
  }

  /** Every column name ends in `_slot`. */
  lemma SlotNameEndsInSlot(e: EquipmentSlot)
    ensures |SlotName(e)| >= 5 && SlotName(e)[|SlotName(e)| - 5..] == "_slot"
  {
  }

  /** The sixteen column names are pairwise distinct. */
  lemma SlotNamesDistinct(a: EquipmentSlot, b: EquipmentSlot)
    ensures a != b ==> SlotName(a) != SlotName(b)
  {
    SlotNameRoundTrip(a);
    SlotNameRoundTrip(b);
  }
}

=== FILE: items.dfy ===
/**
 Item lookups and the crafting check (`ItemService`). The item table and
 the remote item catalogue are seen together as one `catalog`: a code in
 it is answered (from the table or by fetching it), a code missing from it
 makes the remote fetch fail.
 */
module Items {
  import opened Common
  import opened Character
  import opened Inventory

  datatype SimpleItem = SimpleItem(code: string, quantity: int)

  /** A recipe: the skill and level it needs and the ingredients it consumes. */
  datatype CraftSchema = CraftSchema(skill: Option<CraftSkill>, level: Option<int>, items: Option<seq<SimpleItem>>)

  datatype ItemSchema = ItemSchema(code: string, name: string, craft: Option<CraftSchema>)

  /** Kotlin's `Char.isWhitespace`: Java whitespace or a Unicode space separator. */
  predicate IsWhitespace(ch: char) {
    || ch == ' ' || ch == '\t' || ch == '\n' || ch == '\r'
    || ch == '\U{000B}' || ch == '\U{000C}'
    || ('\U{001C}' <= ch <= '\U{001F}')
    || ch == '\U{00A0}' || ch == '\U{1680}'
    || ('\U{2000}' <= ch <= '\U{200A}')
    || ch == '\U{2028}' || ch == '\U{2029}' || ch == '\U{202F}' || ch == '\U{205F}' || ch == '\U{3000}'
  }

  /** `String.isBlank()`: empty or whitespace only. */
  predicate IsBlank(s: string) {
    forall i :: 0 <= i < |s| ==> IsWhitespace(s[i])
  }

  /**
   `get(code)`: null for a blank code without any lookup; otherwise the
   stored or fetched item, and a failed fetch for an unknown code.
   */
  function Get(code: string, catalog: map<string, ItemSchema>): (r: Result<Option<ItemSchema>>)
    ensures IsBlank(code) ==> r == Success(None)
    ensures !IsBlank(code) && code in catalog ==> r == Success(Some(catalog[code]))
    ensures r.Failure? <==> !IsBlank(code) && code !in catalog
    ensures r.Success? && r.value.Some? ==> r.value.value in catalog.Values
  {
    if IsBlank(code) then Success(None)
    else if code in catalog then Success(Some(catalog[code]))
    else Failure(ItemNotFound(code))
  }

  /** The codes that are not blank, in order. */
  function NonBlank(codes: seq<string>): (r: seq<string>)
    ensures forall c :: c in r <==> c in codes && !IsBlank(c)
  {
    if codes == [] then []
    else if IsBlank(codes[0]) then NonBlank(codes[1..])
    else [codes[0]] + NonBlank(codes[1..])
  }

  /**
   `getAll(vararg codes)`: `mapNotNull { get(it) }` — the lookups in
   argument order, blank codes dropped, the first failing fetch failing all.
   */
  function GetAll(codes: seq<string>, catalog: map<string, ItemSchema>): (r: Result<seq<ItemSchema>>)
    ensures r.Success? <==> forall c :: c in codes && !IsBlank(c) ==> c in catalog
    ensures r.Success? ==>
      var kept := NonBlank(codes);
      |r.value| == |kept| && forall i :: 0 <= i < |kept| ==> r.value[i] == catalog[kept[i]]
  {
    if codes == [] then Success([])
    else
      var head :- Get(codes[0], catalog);
      var tail :- GetAll(codes[1..], catalog);
      match head
      case None => Success(tail)
      case Some(item) => Success([item] + tail)
  }

  /** `findItemsInInventory`: the inventory entries whose code is exactly `item`. */
  function FindItemsInInventory(item: string, inv: CharacterInventory): (r: map<int, InventorySlotEntity>)
    ensures forall k :: k in r <==> k in inv.inventory && inv.inventory[k].code == item
    ensures forall k :: k in r ==> r[k] == inv.inventory[k]
  {
    map k | k in inv.inventory && inv.inventory[k].code == item :: inv.inventory[k]
  }

  /** What the entry under key `k` contributes to the count of `item`. */
  function Part(m: map<int, InventorySlotEntity>, k: int, item: string): int
    requires k in m
  {
    if m[k].code == item then m[k].quantity else 0
  }

  /** The quantity of `item` over the entries under `keys`, in no particular order. */
  ghost function SumOver(m: map<int, InventorySlotEntity>, keys: set<int>, item: string): int
    requires keys <= m.Keys
    decreases keys
  {
    if k :| k in keys then Part(m, k, item) + SumOver(m, keys - {k}, item)
    else 0
  }

  /** The sum does not depend on which entry is taken first. */
  lemma {:induction false} SumOverRemove(m: map<int, InventorySlotEntity>, keys: set<int>, item: string, k: int)
    requires keys <= m.Keys && k in keys
    ensures SumOver(m, keys, item) == Part(m, k, item) + SumOver(m, keys - {k}, item)
    decreases keys
  {
    var j :| j in keys && SumOver(m, keys, item) == Part(m, j, item) + SumOver(m, keys - {j}, item);
    if j != k {
      SumOverRemove(m, keys - {j}, item, k);
      SumOverRemove(m, keys - {k}, item, j);
      assert keys - {j} - {k} == keys - {k} - {j};
    }
  }

  /** Entries with another code contribute nothing. */
  lemma {:induction false} SumOverNoMatch(m: map<int, InventorySlotEntity>, keys: set<int>, item: string)
    requires keys <= m.Keys
    requires forall k :: k in keys ==> m[k].code != item
    ensures SumOver(m, keys, item) == 0
    decreases keys
  {
    if k :| k in keys {
      SumOverRemove(m, keys, item, k);
      SumOverNoMatch(m, keys - {k}, item);
    }
  }

  /** The total quantity of `item` in the inventory. */
  ghost function Quantity(item: string, inv: CharacterInventory): int {
    SumOver(inv.inventory, inv.inventory.Keys, item)
  }

  /** With no entry of that code the quantity is 0. */
  lemma QuantityOfAbsentItem(item: string, inv: CharacterInventory)
    requires FindItemsInInventory(item, inv) == map[]
    ensures Quantity(item, inv) == 0
  {
    forall k | k in inv.inventory
      ensures inv.inventory[k].code != item
    {
      assert k !in FindItemsInInventory(item, inv);
    }
    SumOverNoMatch(inv.inventory, inv.inventory.Keys, item);
  }

  /** `quantityInInventory`: sums the quantities of the entries coded `item`. */
  method QuantityInInventory(item: string, inv: CharacterInventory) returns (q: int)
    ensures q == Quantity(item, inv)
  {
    var found := FindItemsInInventory(item, inv);
    var remaining := inv.inventory.Keys;
    q := 0;
    while remaining != {}
      invariant remaining <= inv.inventory.Keys
      invariant q + SumOver(inv.inventory, remaining, item) == Quantity(item, inv)
      decreases remaining
    {
      NonEmptyHasMember(remaining);
      var k :| k in remaining;
      SumOverRemove(inv.inventory, remaining, item, k);
      if k in found {
        q := q + found[k].quantity;
      }
      remaining := remaining - {k};
    }
  }

  lemma NonEmptyHasMember(s: set<int>)
    requires s != {}
    ensures exists k :: k in s
  {
    if forall k :: k !in s {
      assert false;
    }
  }

  /** Every ingredient of the list is held in at least the required quantity. */
  ghost predicate HasIngredients(ingredients: seq<SimpleItem>, inv: CharacterInventory) {
    forall i :: 0 <= i < |ingredients| ==> Quantity(ingredients[i].code, inv) >= ingredients[i].quantity
  }

  /** The crafting condition: a recipe, the skill level it asks (1 by default), the ingredients. */
  ghost predicate Craftable(item: ItemSchema, inv: CharacterInventory, character: CharacterEntity) {
    && item.craft.Some?
    && CraftSkillLevel(character, item.craft.value.skill) >= item.craft.value.level.GetOr(1)
    && (item.craft.value.items.Some? ==> HasIngredients(item.craft.value.items.value, inv))
  }

  /**
   `canCraft`: false for a blank code or an item without recipe, false when
   the skill level is too low or an ingredient is short, true otherwise.
   */
  method CanCraft(itemCode: string, inv: CharacterInventory, character: CharacterEntity, catalog: map<string, ItemSchema>)
    returns (r: Result<bool>)
    ensures r.Failure? <==> Get(itemCode, catalog).Failure?
    ensures IsBlank(itemCode) ==> r == Success(false)
    ensures r == Success(true) <==> !IsBlank(itemCode) && itemCode in catalog && Craftable(catalog[itemCode], inv, character)
  {
    var found := Get(itemCode, catalog);
    if found.Failure? {
      return Failure(found.error);
    }
    if found.value.None? {
      return Success(false);
    }
    var item := found.value.value;
    if item.craft.None? {
      return Success(false);
    }
    var craft := item.craft.value;
    var skillLevel := CraftSkillLevel(character, craft.skill);
    var requiredLevel := craft.level.GetOr(1);
    if skillLevel < requiredLevel {
      return Success(false);
    }
    if craft.items.Some? {
      var ingredients := craft.items.value;
      var i := 0;
      while i < |ingredients|
        invariant 0 <= i <= |ingredients|
        invariant HasIngredients(ingredients[..i], inv)
      {
        var have := QuantityInInventory(ingredients[i].code, inv);
        if have < ingredients[i].quantity {
          return Success(false);
        }
        i := i + 1;
      }
      assert ingredients[..i] == ingredients;
    }
    return Success(true);
  }
}

=== FILE: maps.dfy ===
/**
 Map-tile lookups (`MapService`): collecting the pages of a filtered tile
 listing and choosing the tile nearest to a position.
 */
module Maps {
  import opened Common

  datatype MapContent = MapContent(contentType: string, code: string)

  datatype MapTile = MapTile(name: string, x: int, y: int, content: Option<MapContent>)

  function TilePos(t: MapTile): Pos {
    Pos(t.x, t.y)
  }

  /**
   The server's answer to one filtered listing: the page count it reports
   with the first page (possibly absent) and the contents of pages 1, 2, …
   A page beyond the stored ones comes back empty.
   */
  datatype MapPages = MapPages(pages: Option<int>, data: seq<seq<MapTile>>)

  /** The page count `getAllPages` works with: `resp.pages ?: 1`. */
  function ReportedPages(api: MapPages): int {
    api.pages.GetOr(1)
  }

  function Max(a: int, b: int): int {
    if a < b then b else a
  }

  /** The tiles of page `p` (1-based). */
  function Page(api: MapPages, p: int): seq<MapTile> {
    if 1 <= p <= |api.data| then api.data[p - 1] else []
  }

  /** The pages `lo`, `lo + 1`, …, `hi - 1`, concatenated. */
  function Pages(api: MapPages, lo: int, hi: int): seq<MapTile>
    decreases hi - lo
  {
    if lo >= hi then [] else Page(api, lo) + Pages(api, lo + 1, hi)
  }

  /** The page numbers `lo`, …, `hi - 1`. */
  function Range(lo: int, hi: int): (r: seq<int>)
    ensures |r| == Max(hi - lo, 0)
    ensures forall i :: 0 <= i < |r| ==> r[i] == lo + i
    decreases hi - lo
  {
    if lo >= hi then [] else [lo] + Range(lo + 1, hi)
  }

  lemma {:induction false} PagesSnoc(api: MapPages, lo: int, hi: int)
    requires lo <= hi
    ensures Pages(api, lo, hi + 1) == Pages(api, lo, hi) + Page(api, hi)
    decreases hi - lo
  {
    if lo < hi {
      PagesSnoc(api, lo + 1, hi);
    }
  }

  lemma {:induction false} RangeSnoc(lo: int, hi: int)
    requires lo <= hi
    ensures Range(lo, hi + 1) == Range(lo, hi) + [hi]
  {
  }

  /** The tiles `getAllPages` collects as written: page 1, then pages 1 … pages-1 once more. */
  function AsWrittenTiles(api: MapPages): seq<MapTile> {
    Page(api, 1) + Pages(api, 1, ReportedPages(api))
  }

  /**
   `getAllPages` as written: page 1 is requested, then the loop requests
   pages 1 … pages-1 again. The request log and the collected tiles are
   returned.
   */
  method GetAllPagesAsWritten(api: MapPages) returns (maps: seq<MapTile>, requests: seq<int>)
    ensures |requests| == Max(ReportedPages(api), 1)
    ensures requests == [1] + Range(1, ReportedPages(api))
    ensures maps == AsWrittenTiles(api)
  {
    requests := [1];
    var page := 1;
    var pages := ReportedPages(api);
    maps := Page(api, 1);
    while page < pages
      invariant 1 <= page <= Max(pages, 1)
      invariant requests == [1] + Range(1, page)
      invariant maps == Page(api, 1) + Pages(api, 1, page)
      decreases pages - page
    {
      requests := requests + [page];
      maps := maps + Page(api, page);
      PagesSnoc(api, 1, page);
      RangeSnoc(1, page);
      page := page + 1;
    }
  }

  /** The number of pages a complete listing fetches. */
  function PageCount(api: MapPages): (n: int)
    ensures n >= 1
  {
    Max(ReportedPages(api), 1)
  }

  /** Every tile of the listing, pages 1 … PageCount in order. */
  function AllTiles(api: MapPages): seq<MapTile> {
    Pages(api, 1, PageCount(api) + 1)
  }

  /** `getAllPages` corrected: each page 1 … pages is requested once, in order. */
  method GetAllPages(api: MapPages) returns (maps: seq<MapTile>, requests: seq<int>)
    ensures requests == Range(1, PageCount(api) + 1)
    ensures maps == AllTiles(api)
  {
    var pages := ReportedPages(api);
    requests := [1];
    maps := Page(api, 1);
    var page := 2;
    assert maps == Pages(api, 1, 2);
    while page <= pages
      invariant 2 <= page <= Max(pages, 1) + 1
      invariant requests == Range(1, page)
      invariant maps == Pages(api, 1, page)
      decreases pages - page
    {
      requests := requests + [page];
      maps := maps + Page(api, page);
      PagesSnoc(api, 1, page);
      RangeSnoc(1, page);
      page := page + 1;
    }
  }

  /** The concatenation of a list of pages. */
  function Flatten(pages: seq<seq<MapTile>>): seq<MapTile> {
    if pages == [] then [] else Flatten(pages[..|pages| - 1]) + pages[|pages| - 1]
  }

  lemma {:induction false} PagesAreStoredPages(api: MapPages, n: int)
    requires 0 <= n <= |api.data|
    ensures Pages(api, 1, n + 1) == Flatten(api.data[..n])
  {
    if n > 0 {
      PagesAreStoredPages(api, n - 1);
      PagesSnoc(api, 1, n);
      assert api.data[..n][..n - 1] == api.data[..n - 1];
    }
  }

  /** When the reported count matches the stored pages, the corrected listing is every page in order. */
  lemma AllTilesIsEveryPage(api: MapPages)
    requires api.pages == Some(|api.data|) && |api.data| >= 1
    ensures AllTiles(api) == Flatten(api.data)
  {
    PagesAreStoredPages(api, |api.data|);
    assert api.data[..|api.data|] == api.data;
  }

  /**
   The as-written listing over two reported pages: page 1 comes back twice
   and page 2 is never requested, so its tile is missing.
   */
  lemma AsWrittenDuplicatesFirstAndDropsLast(a: MapTile, b: MapTile)
    requires a != b
    ensures var api := MapPages(Some(2), [[a], [b]]);
      && AsWrittenTiles(api) == [a, a]
      && b !in AsWrittenTiles(api)
      && AllTiles(api) == [a, b]
  {
    var api := MapPages(Some(2), [[a], [b]]);
    assert Pages(api, 1, 2) == [a];
    assert Pages(api, 1, 3) == [a, b] by {
      assert Pages(api, 2, 3) == [b];
    }
  }

  /** With at most one reported page the loop requests nothing, and the as-written listing is the complete one. */
  lemma AsWrittenAgreesOnOnePage(api: MapPages)
    requires ReportedPages(api) <= 1
    ensures AsWrittenTiles(api) == AllTiles(api)
  {
    assert Pages(api, 1, ReportedPages(api)) == [];
    assert Pages(api, 2, 2) == [];
    assert AllTiles(api) == Page(api, 1) + Pages(api, 2, 2);
  }

  /**
   `findAll`: without a content code and without a content type the call is
   rejected; otherwise every tile of the listing the server returns.
   */
  function FindAll(contentCode: Option<string>, contentType: Option<string>, api: MapPages): (r: Result<seq<MapTile>>)
    ensures r.Failure? <==> contentCode.None? && contentType.None?
    ensures r.Failure? ==> r.error.IllegalArgument?
    ensures r.Success? ==> r.value == AllTiles(api)
  {
    if contentCode.None? && contentType.None? then
      Failure(IllegalArgument("Must specify contentCode or contentType"))
    else
      Success(AllTiles(api))
  }

  function Dist(origin: Pos, t: MapTile): nat {
    SqDist(origin, TilePos(t))
  }

  /**
   The scan of `minByOrNull`: `best` is the index of the first minimum of
   the tiles before `i`; it is replaced only by a strictly closer tile.
   */
  function NearestIndexFrom(origin: Pos, tiles: seq<MapTile>, i: int, best: int): (r: int)
    requires 0 <= best < i <= |tiles|
    requires forall k :: 0 <= k < i ==> Dist(origin, tiles[k]) >= Dist(origin, tiles[best])
    requires forall k :: 0 <= k < best ==> Dist(origin, tiles[k]) > Dist(origin, tiles[best])
    ensures 0 <= r < |tiles|
    ensures forall k :: 0 <= k < |tiles| ==> Dist(origin, tiles[k]) >= Dist(origin, tiles[r])
    ensures forall k :: 0 <= k < r ==> Dist(origin, tiles[k]) > Dist(origin, tiles[r])
    decreases |tiles| - i
  {
    if i == |tiles| then best
    else if Dist(origin, tiles[best]) > Dist(origin, tiles[i]) then NearestIndexFrom(origin, tiles, i + 1, i)
    else NearestIndexFrom(origin, tiles, i + 1, best)
  }

  /**
   `minByOrNull { distance(currLoc, it) }`: none for no tiles, otherwise a
   listed tile at minimal distance, the earliest one on a tie.
   */
  function Nearest(origin: Pos, tiles: seq<MapTile>): (r: Option<MapTile>)
    ensures r.None? <==> tiles == []
    ensures r.Some? ==> exists j :: (
      && 0 <= j < |tiles| && tiles[j] == r.value
      && (forall k :: 0 <= k < |tiles| ==> Dist(origin, tiles[k]) >= Dist(origin, r.value))
      && (forall k :: 0 <= k < j ==> Dist(origin, tiles[k]) > Dist(origin, r.value)))
  {
    if tiles == [] then None
    else Some(tiles[NearestIndexFrom(origin, tiles, 1, 0)])
  }

  /** `findNearest`: the nearest tile of the `findAll` listing, the earliest listed one on a tie. */
  function FindNearest(origin: Pos, contentCode: Option<string>, contentType: Option<string>, api: MapPages): (r: Result<Option<MapTile>>)
    ensures r.Failure? <==> contentCode.None? && contentType.None?
    ensures r.Success? ==> (r.value.None? <==> AllTiles(api) == [])
    ensures r.Success? && r.value.Some? ==>
      && r.value.value in AllTiles(api)
      && forall t :: t in AllTiles(api) ==> Dist(origin, t) >= Dist(origin, r.value.value)
    ensures r.Success? && r.value.Some? ==> exists j :: (
      && 0 <= j < |AllTiles(api)| && AllTiles(api)[j] == r.value.value
      && forall k :: 0 <= k < j ==> Dist(origin, AllTiles(api)[k]) > Dist(origin, r.value.value))
  {
    var candidates :- FindAll(contentCode, contentType, api);
    Success(Nearest(origin, candidates))
  }
}

=== FILE: properties.dfy ===
/**
 Properties of the routine engine as a whole: how the record checkpoint
 decides a pending continuation, what submitting, resubmitting and
 cancelling do to a running chain, and the gathering walk-through of a
 character one move away from copper.
 */
module RoutineProperties {
  import opened Common
  import opened Character
  import opened Maps
  import opened Scheduler
  import opened Routines
  import opened CharacterService
  import opened GatherRoutine
  import opened Registry

  /** The world with the `i`-th continuation taken off the queue and the clock at its instant. */
  function Dequeued(w: World, i: nat): (w': World)
    requires i < |w.queue|
    ensures |w'.queue| == |w.queue| - 1
    ensures w'.clock >= w.clock && w'.clock >= w.queue[i].at
  {
    w.(clock := Max(w.clock, w.queue[i].at), queue := w.queue[..i] + w.queue[i + 1..])
  }

  /** A continuation whose character has no record does nothing when it fires. */
  lemma NoRecordNoStep(w: World, i: nat, server: (nat, Action) -> CharacterSchema, fuel: nat)
    requires i < |w.queue|
    requires GetByCharacter(w.routines, w.queue[i].task.owner) == Success(None)
    ensures Fire(w, i, server, fuel) == Dequeued(w, i)
  {
  }

  /** A continuation whose character's record names another routine does nothing when it fires. */
  lemma OtherRoutineNoStep(w: World, i: nat, server: (nat, Action) -> CharacterSchema, fuel: nat, rec: CharacterRoutine)
    requires i < |w.queue|
    requires GetByCharacter(w.routines, w.queue[i].task.owner) == Success(Some(rec))
    requires rec.routine != RoutineName
    ensures Fire(w, i, server, fuel) == Dequeued(w, i)
  {
  }

  /**
   A continuation whose character holds a gather record runs its step,
   whatever request that record carries: the serialized request is never
   compared.
   */
  lemma MatchingRecordRunsStep(w: World, i: nat, server: (nat, Action) -> CharacterSchema, fuel: nat, rec: CharacterRoutine)
    requires i < |w.queue|
    requires GetByCharacter(w.routines, w.queue[i].task.owner) == Success(Some(rec))
    requires rec.routine == RoutineName
    ensures Fire(w, i, server, fuel) == Run(Dequeued(w, i), w.queue[i].task.session, server, fuel)
  {
  }

  /**
   The routine's `afterCooldown` is the scheduler helper applied to the
   checkpointed block: run inline for a null expiration, one queued
   continuation of the same session otherwise.
   */
  lemma ChainUsesCooldownHelper(w: World, c: Continuation, expiration: Option<int>,
                                server: (nat, Action) -> CharacterSchema, fuel: nat)
    requires fuel > 0
    ensures var block := (x: World) => Checkpointed(x, c, server, fuel - 1);
      var e := Scheduler.AfterCooldown(w, w.queue, expiration, block, c);
      GatherRoutine.AfterCooldown(w, c, expiration, server, fuel) == if e.ranInline == 1 then e.state else w.(queue := e.queue)
  {
  }

  /** Storing a gather record, with any request, lets a gather chain of that character pass its checkpoint. */
  lemma SameKindKeepsCheckpoint(t: RoutineTable, c: string, requestJson: string)
    requires Valid(t)
    ensures Checkpoint(StoreRoutine(t, c, RoutineName, requestJson).value, c, RoutineName)
  {
  }

  /** Storing a record of another routine stops a gather chain of that character at its checkpoint. */
  lemma OtherKindFailsCheckpoint(t: RoutineTable, c: string, name: string, requestJson: string)
    requires Valid(t) && name != RoutineName
    ensures !Checkpoint(StoreRoutine(t, c, name, requestJson).value, c, RoutineName)
  {
  }

  /** After `cancelRoutine`, every pending continuation of that character fires without acting. */
  lemma CancelledChainStops(w: World, c: string, i: nat, server: (nat, Action) -> CharacterSchema, fuel: nat)
    requires Valid(w.routines)
    requires i < |w.queue| && w.queue[i].task.owner == c
    ensures var w' := w.(routines := CancelRoutine(w.routines, c).value);
      Fire(w', i, server, fuel) == Dequeued(w', i)
  {
  }

  /**
   Resubmitting a gather request for a character leaves its pending
   continuations in the queue, and they still pass their checkpoint.
   */
  lemma ResubmitKeepsChain(w: World, c: string, req: GatherRequest, requestJson: string, registry: seq<RoutineKind>,
                           server: (nat, Action) -> CharacterSchema, fuel: nat, i: nat)
    requires Valid(w.routines) && GatherKind in registry
    requires i < |w.queue| && w.queue[i].task.owner == c
    ensures var o := Submit(w, c, GatherRequestOf(req), requestJson, registry, server, fuel);
      && o.Success?
      && i < |o.value.world.queue| && o.value.world.queue[i] == w.queue[i]
      && Checkpoint(o.value.world.routines, c, RoutineName)
  {
    var o := Submit(w, c, GatherRequestOf(req), requestJson, registry, server, fuel);
    var j :| 0 <= j < |registry| && registry[j] == GatherKind;
    assert Accepts(registry[j], GatherRequestOf(req));
    var k := o.value.started.value;
    assert k == GatherKind;
    assert o.value.world.queue[..|w.queue|] == w.queue;
    assert o.value.world.queue[i] == o.value.world.queue[..|w.queue|][i];
  }

  /** A server whose every reply is the character `c` with no cooldown, so each continuation runs inline. */
  ghost predicate RepliesInline(server: (nat, Action) -> CharacterSchema, c: string) {
    forall k, a :: server(k, a).character.name == c && server(k, a).character.cooldownExpiration.None?
  }

  /**
   Against a server replying inline, a step of `c` with a tile and no end
   mark acts, and returns `c` without a cooldown.
   */
  lemma InlineStepActs(w: World, s: Session, server: (nat, Action) -> CharacterSchema)
    requires s.character in w.store.characters && s.deadline.None?
    requires AllTiles(Listing(w, ContentCode(s.req.resource))) != []
    requires RepliesInline(server, s.character)
    ensures var o := Step(w, s, server);
      && o.Acted? && o.entity.name == s.character && o.entity.cooldownExpiration.None?
      && s.character in o.world.store.characters
      && o.world.routines == w.routines && o.world.maps == w.maps && o.world.clock == w.clock
      && |o.world.log| == |w.log| + 1
  {
    var o := Step(w, s, server);
    assert o.Acted?;
    var action := o.world.log[|w.log|];
    assert o.entity == server(|w.log|, action).character.(version := o.entity.version);
  }

  /**
   Started on a table without the character's record, the chain stops at
   the first checkpoint: with inline continuations exactly one action is
   issued.
   */
  lemma UnrecordedStartStopsAtCheckpoint(w: World, c: string, resource: GatherResource,
                                         server: (nat, Action) -> CharacterSchema, fuel: nat)
    requires GetByCharacter(w.routines, c) == Success(None)
    requires c in w.store.characters
    requires AllTiles(Listing(w, ContentCode(resource))) != []
    requires RepliesInline(server, c) && fuel >= 1
    ensures |Start(w, c, GatherRequest(resource, None), server, fuel).log| == |w.log| + 1
  {
    var s := Session(c, GatherRequest(resource, None), None);
    assert Deadline(GatherRequest(resource, None), w.clock) == None;
    InlineStepActs(w, s, server);
    var o := Step(w, s, server);
    assert !Checkpoint(o.world.routines, c, RoutineName);
    assert Run(w, s, server, fuel) == GatherRoutine.AfterCooldown(o.world, Continuation(c, s), None, server, fuel);
  }

  /** With the record in place, an inline chain acts at least twice. */
  lemma RecordedInlineChainActsTwice(w: World, s: Session, server: (nat, Action) -> CharacterSchema, fuel: nat)
    requires Checkpoint(w.routines, s.character, RoutineName)
    requires s.character in w.store.characters && s.deadline.None?
    requires AllTiles(Listing(w, ContentCode(s.req.resource))) != []
    requires RepliesInline(server, s.character) && fuel >= 1
    ensures |Run(w, s, server, fuel).log| >= |w.log| + 2
  {
    InlineStepActs(w, s, server);
    var w1 := Step(w, s, server).world;
    InlineRunContinues(w, s, server, fuel);
    InlineRunActs(w1, s, server, fuel - 1);
  }

  /** With the record in place, a step that acts without a cooldown continues the chain at once. */
  lemma InlineRunContinues(w: World, s: Session, server: (nat, Action) -> CharacterSchema, fuel: nat)
    requires Checkpoint(w.routines, s.character, RoutineName)
    requires s.character in w.store.characters && s.deadline.None?
    requires AllTiles(Listing(w, ContentCode(s.req.resource))) != []
    requires RepliesInline(server, s.character) && fuel >= 1
    ensures Run(w, s, server, fuel) == Run(Step(w, s, server).world, s, server, fuel - 1)
  {
    InlineStepActs(w, s, server);
    var o := Step(w, s, server);
    var c := Continuation(o.entity.name, s);
    assert Run(w, s, server, fuel) == GatherRoutine.AfterCooldown(o.world, c, None, server, fuel);
    assert GatherRoutine.AfterCooldown(o.world, c, None, server, fuel) == Checkpointed(o.world, c, server, fuel - 1);
  }

  /** Whatever follows, a chain whose first step acts issues at least that step's action. */
  lemma InlineRunActs(w: World, s: Session, server: (nat, Action) -> CharacterSchema, fuel: nat)
    requires s.character in w.store.characters && s.deadline.None?
    requires AllTiles(Listing(w, ContentCode(s.req.resource))) != []
    requires RepliesInline(server, s.character)
    ensures |Run(w, s, server, fuel).log| >= |w.log| + 1
  {
    InlineStepActs(w, s, server);
    assert Extends(Step(w, s, server).world, Run(w, s, server, fuel));
  }

  /**
   `start` stores the record before it starts the routine: the same inline
   chain submitted through the service passes the checkpoint after its
   first action and acts again, and the stored table is the one the world
   keeps.
   */
  lemma SubmitStoresBeforeStarting(w: World, c: string, resource: GatherResource, requestJson: string,
                                   registry: seq<RoutineKind>, server: (nat, Action) -> CharacterSchema, fuel: nat)
    requires Valid(w.routines) && GatherKind in registry
    requires c in w.store.characters
    requires AllTiles(Listing(w, ContentCode(resource))) != []
    requires RepliesInline(server, c) && fuel >= 1
    ensures var o := Submit(w, c, GatherRequestOf(GatherRequest(resource, None)), requestJson, registry, server, fuel);
      && o.Success?
      && o.value.world.routines == StoreRoutine(w.routines, c, RoutineName, requestJson).value
      && |o.value.world.log| >= |w.log| + 2
  {
    var req := GatherRequest(resource, None);
    var o := Submit(w, c, GatherRequestOf(req), requestJson, registry, server, fuel);
    var j :| 0 <= j < |registry| && registry[j] == GatherKind;
    assert Accepts(registry[j], GatherRequestOf(req));
    var table := StoreRoutine(w.routines, c, RoutineName, requestJson).value;
    var w0 := w.(routines := table);
    assert o.value.world == Start(w0, c, req, server, fuel);
    assert Deadline(req, w0.clock) == None;
    RecordedInlineChainActsTwice(w0, Session(c, req, None), server, fuel);
  }

  /**
   The first step of `start` runs without the checkpoint: a character with
   no record at all still acts once when a tile exists and no end mark is set.
   */
  lemma FirstStepSkipsCheckpoint(w: World, c: string, resource: GatherResource,
                                 server: (nat, Action) -> CharacterSchema, fuel: nat)
    requires GetByCharacter(w.routines, c) == Success(None)
    requires c in w.store.characters
    requires AllTiles(Listing(w, ContentCode(resource))) != []
    ensures |Start(w, c, GatherRequest(resource, None), server, fuel).log| > |w.log|
  {
    var s := Session(c, GatherRequest(resource, None), None);
    assert Deadline(GatherRequest(resource, None), w.clock) == None;
    var o := Step(w, s, server);
    assert o.Acted?;
    assert Extends(o.world, Run(w, s, server, fuel));
  }

  /**
   A duration of zero or less: the record is written, yet no action is
   issued and nothing is scheduled.
   */
  lemma ElapsedDeadlineIssuesNothing(w: World, c: string, req: GatherRequest, requestJson: string,
                                     registry: seq<RoutineKind>, server: (nat, Action) -> CharacterSchema, fuel: nat)
    requires Valid(w.routines) && GatherKind in registry
    requires req.duration.Some? && req.duration.value <= 0
    ensures var o := Submit(w, c, GatherRequestOf(req), requestJson, registry, server, fuel);
      && o.Success?
      && o.value.world.log == w.log && o.value.world.queue == w.queue && o.value.world.store == w.store
      && Get(o.value.world, c) == Success(Some(CharacterRoutine(c, RoutineName, Some(requestJson), Some(w.routines.nextId))))
  {
    var j :| 0 <= j < |registry| && registry[j] == GatherKind;
    assert Accepts(registry[j], GatherRequestOf(req));
  }

  /** Without a tile of the resource the start changes nothing: no action, no continuation, the same store. */
  lemma NoTileIssuesNothing(w: World, c: string, req: GatherRequest, server: (nat, Action) -> CharacterSchema, fuel: nat)
    requires AllTiles(Listing(w, ContentCode(req.resource))) == []
    ensures Start(w, c, req, server, fuel) == w
  {
  }

  // The walk-through: Hero1 at (0, 0), a single copper tile at (3, 4).

  const NoEquipment := Equipment("", "", "", "", "", "", "", "", "", "", "", "", "", "", "", "")

  function Hero(x: int, y: int, cooldown: Option<int>): CharacterEntity {
    CharacterEntity("Hero1", 0, 100, 100, SkillLevels(1, 1, 1, 1, 1, 1, 1, 1), x, y, NoEquipment, 20, cooldown, None)
  }

  const CopperTile := MapTile("copper", 3, 4, Some(MapContent("resource", "copper_rocks")))

  /** The server places Hero1 on the copper tile and puts the `k`-th action on a cooldown until `1000 * (k + 1)`. */
  function HeroServer(k: nat, a: Action): CharacterSchema {
    CharacterSchema(Hero(3, 4, Some(1000 * (k + 1))), None)
  }

  const HeroWorld := World(0, Store(map["Hero1" := Hero(0, 0, None)], []), RoutineTable([], 0),
                           map["copper_rocks" := MapPages(Some(1), [[CopperTile]])], [], [])

  const CopperRequest := GatherRequest(Copper, None)

  const HeroSession := Session("Hero1", CopperRequest, None)

  /** The continuation each of Hero1's steps queues: keyed on the returned entity, Hero1. */
  const HeroNext := Continuation("Hero1", HeroSession)

  lemma CopperListing(w: World)
    requires w.maps == HeroWorld.maps
    ensures AllTiles(Listing(w, ContentCode(Copper))) == [CopperTile]
  {
    var api := MapPages(Some(1), [[CopperTile]]);
    assert Listing(w, ContentCode(Copper)) == api;
    assert Pages(api, 1, 2) == [CopperTile] by {
      assert Pages(api, 2, 2) == [];
    }
  }

  /**
   One step of Hero1's copper chain, from anywhere: a move when away from
   the tile, a gather when on it; either way Hero1 ends on the tile and the
   next step is queued for the action's cooldown.
   */
  lemma HeroStep(w: World)
    requires w.maps == HeroWorld.maps && "Hero1" in w.store.characters
    ensures var r := Run(w, HeroSession, HeroServer, 0);
      var here := Location(w.store.characters["Hero1"]);
      && r.log == w.log + [if here == Pos(3, 4) then Gathering("Hero1") else MoveTo("Hero1", 3, 4)]
      && r.queue == w.queue + [Pending(1000 * (|w.log| + 1), HeroNext)]
      && r.routines == w.routines && r.clock == w.clock && r.maps == w.maps
      && "Hero1" in r.store.characters && Location(r.store.characters["Hero1"]) == Pos(3, 4)
  {
    CopperListing(w);
    var t := Target(w, HeroSession);
    assert t == Some(CopperTile);
    var o := Step(w, HeroSession, HeroServer);
    assert o.Acted?;
    var action := o.world.log[|w.log|];
    assert o.world.log == w.log + [action];
    assert HeroServer(|w.log|, action).character == Hero(3, 4, Some(1000 * (|w.log| + 1)));
  }

  /** A queued step of Hero1's chain, fired while the gather record stands: Hero1 gathers on the tile. */
  lemma HeroFire(w: World)
    requires w.maps == HeroWorld.maps && "Hero1" in w.store.characters
    requires Location(w.store.characters["Hero1"]) == Pos(3, 4)
    requires Checkpoint(w.routines, "Hero1", RoutineName)
    requires |w.queue| == 1 && w.queue[0].task == HeroNext
    ensures var r := Fire(w, 0, HeroServer, 0);
      && r.log == w.log + [Gathering("Hero1")]
      && r.queue == [Pending(1000 * (|w.log| + 1), HeroNext)]
      && r.routines == w.routines && r.maps == w.maps
      && "Hero1" in r.store.characters && Location(r.store.characters["Hero1"]) == Pos(3, 4)
  {
    var d := Dequeued(w, 0);
    assert d.queue == [];
    assert Fire(w, 0, HeroServer, 0) == Run(d, HeroSession, HeroServer, 0);
    HeroStep(d);
  }

  /** Submitting the copper request stores the gather record and then runs Hero1's chain on that table. */
  lemma HeroSubmitStarts()
    ensures var o := Submit(HeroWorld, "Hero1", GatherRequestOf(CopperRequest), "{}", [GatherKind], HeroServer, 0);
      && o.Success? && o.value.started == Some(GatherKind)
      && o.value.world == Run(HeroWorld.(routines := o.value.world.routines), HeroSession, HeroServer, 0)
  {
    assert Valid(HeroWorld.routines);
    assert Accepts([GatherKind][0], GatherRequestOf(CopperRequest));
  }

  /** Submitting the copper request: the record is stored and Hero1 moves to the tile. */
  lemma HeroSubmit()
    ensures var o := Submit(HeroWorld, "Hero1", GatherRequestOf(CopperRequest), "{}", [GatherKind], HeroServer, 0);
      && o.Success?
      && o.value.world.log == [MoveTo("Hero1", 3, 4)]
      && o.value.world.queue == [Pending(1000, HeroNext)]
      && o.value.world.maps == HeroWorld.maps
      && Checkpoint(o.value.world.routines, "Hero1", RoutineName)
      && "Hero1" in o.value.world.store.characters && Location(o.value.world.store.characters["Hero1"]) == Pos(3, 4)
  {
    HeroSubmitStarts();
    assert Valid(HeroWorld.routines);
    var o := Submit(HeroWorld, "Hero1", GatherRequestOf(CopperRequest), "{}", [GatherKind], HeroServer, 0);
    HeroRunsOnTable(o.value.world.routines);
  }

  /** Whatever the routine table, Hero1's copper chain from the start issues a move to the tile and queues the next step. */
  lemma HeroRunsOnTable(t: RoutineTable)
    ensures var r := Run(HeroWorld.(routines := t), HeroSession, HeroServer, 0);
      && r.log == [MoveTo("Hero1", 3, 4)]
      && r.queue == [Pending(1000, HeroNext)]
      && r.maps == HeroWorld.maps && r.routines == t
      && "Hero1" in r.store.characters && Location(r.store.characters["Hero1"]) == Pos(3, 4)
  {
    var w0 := HeroWorld.(routines := t);
    assert Location(w0.store.characters["Hero1"]) == Pos(0, 0) && w0.log == [] && w0.queue == [];
    HeroStep(w0);
  }
}

=== FILE: registry.dfy ===
/**
 The routine service (`RoutineService`): a request goes to the first
 registered routine that accepts its type; that routine's record replaces
 the character's record and the routine is started.
 */
module Registry {
  import opened Common
  import opened Character
  import opened Routines
  import opened GatherRoutine

  /** The routines the application registers; `GatherRoutine` is the only one in the source. */
  datatype RoutineKind = GatherKind

  /** A start request: a gather request, or a request of some other type. */
  datatype RoutineRequest = GatherRequestOf(gather: GatherRequest) | OtherRequest(typeName: string)

  /** `getRequestClass().isInstance(request)`. */
  predicate Accepts(k: RoutineKind, r: RoutineRequest) {
    match k
    case GatherKind => r.GatherRequestOf?
  }

  /** `getRoutineName()` of each routine. */
  function KindName(k: RoutineKind): string {
    match k
    case GatherKind => RoutineName
  }

  /** `find { … }`: the index of the first element satisfying `accepts`. */
  function FirstMatch<K>(registry: seq<K>, accepts: K -> bool): (i: Option<nat>)
    ensures i.None? <==> forall j :: 0 <= j < |registry| ==> !accepts(registry[j])
    ensures i.Some? ==> i.value < |registry| && accepts(registry[i.value])
    ensures i.Some? ==> forall j :: 0 <= j < i.value ==> !accepts(registry[j])
  {
    if registry == [] then None
    else if accepts(registry[0]) then Some(0)
    else match FirstMatch(registry[1..], accepts)
      case None => None
      case Some(j) => Some(j + 1)
  }

  /** The first registered routine whose request class accepts the request. */
  function FirstAccepting(registry: seq<RoutineKind>, r: RoutineRequest): (i: Option<nat>)
    ensures i.None? <==> forall j :: 0 <= j < |registry| ==> !Accepts(registry[j], r)
    ensures i.Some? ==> i.value < |registry| && Accepts(registry[i.value], r)
    ensures i.Some? ==> forall j :: 0 <= j < i.value ==> !Accepts(registry[j], r)
  {
    FirstMatch(registry, k => Accepts(k, r))
  }

  /** `routine.start(character, request)` for an accepting routine. */
  function StartKind(k: RoutineKind, w: World, character: string, r: RoutineRequest,
                     server: (nat, Action) -> CharacterSchema, fuel: nat): (w': World)
    requires Accepts(k, r)
    ensures Extends(w, w')
  {
    match r
    case GatherRequestOf(req) => Start(w, character, req, server, fuel)
  }

  /** The outcome of a submission: the world afterwards and the routine started, if any. */
  datatype Submitted = Submitted(world: World, started: Option<RoutineKind>)

  /**
   `start(character, request)`: without an accepting routine nothing is
   written or started; otherwise the first accepting routine's record (its
   name and the serialized request `requestJson`) replaces the character's
   record, then that routine is started.
   */
  function Submit(w: World, character: string, r: RoutineRequest, requestJson: string, registry: seq<RoutineKind>,
                  server: (nat, Action) -> CharacterSchema, fuel: nat): (o: Result<Submitted>)
    ensures Valid(w.routines) ==> o.Success?
    ensures o.Success? && o.value.started.None? ==> o.value.world == w
    ensures o.Success? ==> (o.value.started.None? <==> forall j :: 0 <= j < |registry| ==> !Accepts(registry[j], r))
    ensures o.Success? && o.value.started.Some? ==> o.value.started.value == registry[FirstAccepting(registry, r).value]
    ensures Valid(w.routines) && o.value.started.Some? ==>
      var k := o.value.started.value;
      && Valid(o.value.world.routines)
      && Get(o.value.world, character) == Success(Some(CharacterRoutine(character, KindName(k), Some(requestJson), Some(w.routines.nextId))))
      && Checkpoint(o.value.world.routines, character, KindName(k))
      && forall other :: other != character ==> Get(o.value.world, other) == Get(w, other)
    ensures Valid(w.routines) && o.value.started.Some? ==> Extends(w.(routines := o.value.world.routines), o.value.world)
  {
    match FirstAccepting(registry, r)
    case None => Success(Submitted(w, None))
    case Some(i) =>
      var k := registry[i];
      var table :- StoreRoutine(w.routines, character, KindName(k), requestJson);
      assert Valid(w.routines) ==> Checkpoint(table, character, KindName(k));
      Success(Submitted(StartKind(k, w.(routines := table), character, r, server, fuel), Some(k)))
  }

  /** `get(character)`: the character's current record. */
  function Get(w: World, character: string): Result<Option<CharacterRoutine>> {
    GetByCharacter(w.routines, character)
  }
}

=== FILE: routine.dfy ===
/**
 The stored routine records (`CharacterRoutine`, the routine table) and
 what the abstract `Routine` does with them: building a record, reading and
 cancelling a character's record, and the checkpoint every scheduled step
 passes before it runs.
 */
module Routines {
  import opened Common

  /** A stored routine record; `id` is assigned by the database on insert. */
  datatype CharacterRoutine = CharacterRoutine(character: string, routine: string, requestJson: Option<string>, id: Option<int>)

  /** The routine table: its rows in insertion order and the next id the database hands out. */
  datatype RoutineTable = RoutineTable(rows: seq<CharacterRoutine>, nextId: int)

  /** No later row shares an id or a character with an earlier one. */
  predicate DistinctRows(rows: seq<CharacterRoutine>) {
    rows == [] ||
      ((forall x :: x in rows[1..] ==> x.id != rows[0].id && x.character != rows[0].character)
        && DistinctRows(rows[1..]))
  }

  /**
   The table invariant: every row carries an id below `nextId`, and no two
   rows share an id or belong to the same character.
   */
  predicate Valid(t: RoutineTable) {
    && (forall x :: x in t.rows ==> x.id.Some? && x.id.value < t.nextId)
    && DistinctRows(t.rows)
  }

  /** Two rows of a distinct table with the same id or the same character are the same row. */
  lemma {:induction false} DistinctRowsUnique(rows: seq<CharacterRoutine>, x: CharacterRoutine, y: CharacterRoutine)
    requires DistinctRows(rows) && x in rows && y in rows
    requires x.id == y.id || x.character == y.character
    ensures x == y
  {
    if x != rows[0] && y != rows[0] {
      DistinctRowsUnique(rows[1..], x, y);
    }
  }

  /** A row that clashes with no existing row keeps the table distinct when appended. */
  lemma {:induction false} DistinctRowsAppend(rows: seq<CharacterRoutine>, r: CharacterRoutine)
    requires DistinctRows(rows)
    requires forall x :: x in rows ==> x.id != r.id && x.character != r.character
    ensures DistinctRows(rows + [r])
  {
    if rows != [] {
      assert (rows + [r])[1..] == rows[1..] + [r];
      DistinctRowsAppend(rows[1..], r);
    }
  }

  /** The rows of one character, in table order. */
  function MatchesOf(rows: seq<CharacterRoutine>, c: string): (r: seq<CharacterRoutine>)
    ensures forall x :: x in r <==> x in rows && x.character == c
  {
    if rows == [] then []
    else if rows[0].character == c then [rows[0]] + MatchesOf(rows[1..], c)
    else MatchesOf(rows[1..], c)
  }

  lemma {:induction false} NoMatches(rows: seq<CharacterRoutine>, c: string)
    requires forall x :: x in rows ==> x.character != c
    ensures MatchesOf(rows, c) == []
  {
    if rows != [] {
      NoMatches(rows[1..], c);
    }
  }

  lemma {:induction false} MatchesOfDistinct(rows: seq<CharacterRoutine>, c: string)
    requires DistinctRows(rows)
    ensures |MatchesOf(rows, c)| <= 1
  {
    if rows != [] {
      MatchesOfDistinct(rows[1..], c);
      if rows[0].character == c {
        NoMatches(rows[1..], c);
      }
    }
  }

  /**
   `getByCharacter`: the character's record or none; two records for one
   character make the query fail.
   */
  function GetByCharacter(t: RoutineTable, c: string): (r: Result<Option<CharacterRoutine>>)
    ensures Valid(t) ==> r.Success?
    ensures r.Success? && r.value.Some? ==> r.value.value in t.rows && r.value.value.character == c
    ensures r == Success(None) <==> forall i :: 0 <= i < |t.rows| ==> t.rows[i].character != c
  {
    var found := MatchesOf(t.rows, c);
    assert Valid(t) ==> |found| <= 1 by {
      if Valid(t) {
        MatchesOfDistinct(t.rows, c);
      }
    }
    if found == [] then
      assert forall i :: 0 <= i < |t.rows| ==> t.rows[i] !in found;
      Success(None)
    else if |found| == 1 then
      assert found[0] in found;
      Success(Some(found[0]))
    else
      assert found[0] in found;
      Failure(DuplicateRecord(c))
  }

  /** The rows whose id differs from `id`. */
  function DeleteById(rows: seq<CharacterRoutine>, id: Option<int>): (r: seq<CharacterRoutine>)
    ensures forall x :: x in r <==> x in rows && x.id != id
    ensures |r| <= |rows|
  {
    if rows == [] then []
    else if rows[0].id == id then DeleteById(rows[1..], id)
    else [rows[0]] + DeleteById(rows[1..], id)
  }

  /** Removing rows never breaks distinctness. */
  lemma {:induction false} DeleteByIdKeepsDistinct(rows: seq<CharacterRoutine>, id: Option<int>)
    requires DistinctRows(rows)
    ensures DistinctRows(DeleteById(rows, id))
  {
    if rows != [] {
      DeleteByIdKeepsDistinct(rows[1..], id);
      if rows[0].id != id {
        var r := DeleteById(rows, id);
        assert r[1..] == DeleteById(rows[1..], id);
      }
    }
  }

  lemma DeleteKeepsValid(t: RoutineTable, id: Option<int>)
    requires Valid(t)
    ensures Valid(RoutineTable(DeleteById(t.rows, id), t.nextId))
  {
    DeleteByIdKeepsDistinct(t.rows, id);
  }

  /** `delete(record)`: the row with the record's id is removed. */
  function Delete(t: RoutineTable, rec: CharacterRoutine): (t': RoutineTable)
    ensures Valid(t) ==> Valid(t')
    ensures forall x :: x in t'.rows <==> x in t.rows && x.id != rec.id
    ensures t'.nextId == t.nextId
  {
    assert Valid(t) ==> Valid(RoutineTable(DeleteById(t.rows, rec.id), t.nextId)) by {
      if Valid(t) {
        DeleteKeepsValid(t, rec.id);
      }
    }
    RoutineTable(DeleteById(t.rows, rec.id), t.nextId)
  }

  /** `save` of a new record: inserted at the end with the next id. */
  function Insert(t: RoutineTable, rec: CharacterRoutine): (t': RoutineTable)
    ensures t'.rows == t.rows + [rec.(id := Some(t.nextId))]
    ensures t'.nextId == t.nextId + 1
  {
    RoutineTable(t.rows + [rec.(id := Some(t.nextId))], t.nextId + 1)
  }

  /** `toStorable`: the character, the routine's name, the serialized request and no id yet. */
  function ToStorable(character: string, routineName: string, requestJson: string): (rec: CharacterRoutine)
    ensures rec.character == character && rec.routine == routineName
    ensures rec.requestJson == Some(requestJson) && rec.id.None?
  {
    CharacterRoutine(character, routineName, Some(requestJson), None)
  }

  /**
   `cancelRoutine`: the character's record is deleted if there is one;
   without one the table is left as it is. Afterwards the character has no
   record, every other character keeps theirs, and nothing is added.
   */
  function CancelRoutine(t: RoutineTable, c: string): (r: Result<RoutineTable>)
    ensures Valid(t) ==> r.Success? && Valid(r.value)
    ensures Valid(t) ==> GetByCharacter(r.value, c) == Success(None)
    ensures Valid(t) && GetByCharacter(t, c) == Success(None) ==> r.value == t
    ensures Valid(t) ==> forall x :: x in t.rows && x.character != c ==> x in r.value.rows
    ensures Valid(t) ==> (forall x :: x in r.value.rows ==> x in t.rows) && r.value.nextId == t.nextId
  {
    var current :- GetByCharacter(t, c);
    match current
    case None => Success(t)
    case Some(rec) =>
      var t' := Delete(t, rec);
      assert Valid(t) ==> GetByCharacter(t', c) == Success(None)
          && forall x :: x in t.rows && x.character != c ==> x in t'.rows by {
        if Valid(t) {
          OnlyRowOfCharacterHasItsId(t, rec);
        }
      }
      Success(t')
  }

  /** In a valid table a row's id belongs to that row alone. */
  lemma OnlyRowOfCharacterHasItsId(t: RoutineTable, rec: CharacterRoutine)
    requires Valid(t) && rec in t.rows
    ensures forall x :: x in t.rows && x.id == rec.id ==> x == rec
    ensures forall x :: x in t.rows && x.character == rec.character ==> x == rec
  {
    forall x | x in t.rows && (x.id == rec.id || x.character == rec.character)
      ensures x == rec
    {
      DistinctRowsUnique(t.rows, x, rec);
    }
  }

  /**
   The checkpoint of the scheduled continuation, evaluated when it fires: it
   passes exactly when the character has a record and that record's routine
   name is the routine's own. The serialized request is not compared.
   */
  predicate Checkpoint(t: RoutineTable, c: string, routineName: string) {
    match GetByCharacter(t, c)
    case Success(Some(rec)) => rec.routine == routineName
    case _ => false
  }

  lemma CheckpointMeaning(t: RoutineTable, c: string, routineName: string)
    requires Valid(t)
    ensures Checkpoint(t, c, routineName) <==> exists x :: x in t.rows && x.character == c && x.routine == routineName
  {
    if exists x :: x in t.rows && x.character == c {
      var x :| x in t.rows && x.character == c;
      var i :| 0 <= i < |t.rows| && t.rows[i] == x;
      assert t.rows[i].character == c;
      var r := GetByCharacter(t, c);
      OnlyRowOfCharacterHasItsId(t, r.value.value);
    }
  }

  /** In a valid table, a row is what `getByCharacter` returns for its character. */
  lemma GetByCharacterFindsRow(t: RoutineTable, x: CharacterRoutine)
    requires Valid(t) && x in t.rows
    ensures GetByCharacter(t, x.character) == Success(Some(x))
  {
    var r := GetByCharacter(t, x.character);
    var i :| 0 <= i < |t.rows| && t.rows[i] == x;
    assert r != Success(None);
    DistinctRowsUnique(t.rows, x, r.value.value);
  }

  /** A character without any row has no record. */
  lemma GetByCharacterAbsent(t: RoutineTable, c: string)
    requires forall x :: x in t.rows ==> x.character != c
    ensures GetByCharacter(t, c) == Success(None)
  {
    assert forall i :: 0 <= i < |t.rows| ==> t.rows[i] in t.rows;
  }

  /**
   `storeRoutine`: the character's record, if any, is deleted, then the new
   record is saved. Afterwards the character's record is the new one, with
   the next id, and every other character's record is what it was.
   */
  function StoreRoutine(t: RoutineTable, c: string, routineName: string, requestJson: string): (r: Result<RoutineTable>)
    ensures Valid(t) ==> r.Success? && Valid(r.value)
    ensures Valid(t) ==>
      GetByCharacter(r.value, c) == Success(Some(CharacterRoutine(c, routineName, Some(requestJson), Some(t.nextId))))
    ensures Valid(t) ==> forall other :: other != c ==> GetByCharacter(r.value, other) == GetByCharacter(t, other)
  {
    var current :- GetByCharacter(t, c);
    var kept := match current
      case None => t
      case Some(rec) => Delete(t, rec);
    var t' := Insert(kept, ToStorable(c, routineName, requestJson));
    assert Valid(t) ==> StoredAsOnlyRecord(t, kept, t', c, routineName, requestJson) by {
      if Valid(t) {
        if current.Some? {
          OnlyRowOfCharacterHasItsId(t, current.value);
        } else {
          assert forall x :: x in t.rows ==> x.character != c;
        }
        StoreRoutineProperties(t, kept, t', c, routineName, requestJson);
      }
    }
    Success(t')
  }

  /** What `storeRoutine` establishes, spelled out for its proof. */
  ghost predicate StoredAsOnlyRecord(t: RoutineTable, kept: RoutineTable, t': RoutineTable, c: string, routineName: string, requestJson: string) {
    && Valid(t')
    && GetByCharacter(t', c) == Success(Some(CharacterRoutine(c, routineName, Some(requestJson), Some(t.nextId))))
    && forall other :: other != c ==> GetByCharacter(t', other) == GetByCharacter(t, other)
  }

  lemma StoreRoutineProperties(t: RoutineTable, kept: RoutineTable, t': RoutineTable, c: string, routineName: string, requestJson: string)
    requires Valid(t) && Valid(kept) && kept.nextId == t.nextId
    requires forall x :: x in kept.rows ==> x in t.rows && x.character != c
    requires forall x :: x in t.rows && x.character != c ==> x in kept.rows
    requires t' == Insert(kept, ToStorable(c, routineName, requestJson))
    ensures StoredAsOnlyRecord(t, kept, t', c, routineName, requestJson)
  {
    var added := CharacterRoutine(c, routineName, Some(requestJson), Some(t.nextId));
    DistinctRowsAppend(kept.rows, added);
    assert Valid(t');
    GetByCharacterFindsRow(t', added);
    forall other | other != c
      ensures GetByCharacter(t', other) == GetByCharacter(t, other)
    {
      if x :| x in t.rows && x.character == other {
        GetByCharacterFindsRow(t, x);
        GetByCharacterFindsRow(t', x);
      } else {
        GetByCharacterAbsent(t, other);
        GetByCharacterAbsent(t', other);
      }
    }
  }
}

=== FILE: scheduler.dfy ===
/**
 The cooldown helper over the task scheduler (`TaskSchedulerExtensions`):
 a block runs at once when there is no cooldown expiration, and is
 otherwise handed to the scheduler for that instant. The scheduler itself
 is a queue of pending tasks, each with the instant it is due.
 */
module Scheduler {
  import opened Common
  import opened Character

  /** A task handed to the scheduler, due at instant `at`. */
  datatype Pending<T> = Pending(at: int, task: T)

  /** What the helper does with a block. */
  datatype Dispatch = RunInline | ScheduleAt(at: int)

  /**
   `afterCooldown(OffsetDateTime?)`: a null expiration runs the block in the
   caller; any expiration, past or future, schedules it for that instant.
   */
  function Decide(expiration: Option<int>): (d: Dispatch)
    ensures d.RunInline? <==> expiration.None?
    ensures d.ScheduleAt? ==> d.at == expiration.value
  {
    match expiration
    case None => RunInline
    case Some(t) => ScheduleAt(t)
  }

  /** The caller's state after the helper, the scheduler queue, and how often the block ran in the call. */
  datatype Effect<S, T> = Effect(state: S, queue: seq<Pending<T>>, ranInline: nat)

  /**
   The helper applied to a block: `block` is the block's effect on the
   caller's state and `task` its pending form for the scheduler.
   */
  function AfterCooldown<S, T>(state: S, queue: seq<Pending<T>>, expiration: Option<int>, block: S -> S, task: T): (e: Effect<S, T>)
    ensures e.ranInline == 1 <==> expiration.None?
    ensures e.ranInline + (|e.queue| - |queue|) == 1
    ensures |e.queue| >= |queue| && e.queue[..|queue|] == queue
    ensures e.ranInline == 1 ==> e.state == block(state) && e.queue == queue
    ensures e.ranInline == 0 ==> e.state == state && e.queue[|queue|] == Pending(expiration.value, task)
  {
    match Decide(expiration)
    case RunInline => Effect(block(state), queue, 1)
    case ScheduleAt(t) => Effect(state, queue + [Pending(t, task)], 0)
  }

  /** An expiration already in the past is still scheduled, never run in the caller. */
  lemma PastExpirationIsScheduled<S, T>(state: S, queue: seq<Pending<T>>, now: int, t: int, block: S -> S, task: T)
    requires t < now
    ensures AfterCooldown(state, queue, Some(t), block, task) == Effect(state, queue + [Pending(t, task)], 0)
  {
  }

  /** The API's cooldown payload; its expiration is always present. */
  datatype CooldownSchema = CooldownSchema(totalSeconds: int, remainingSeconds: int, expiration: int)

  /** The three objects the overloads accept. */
  datatype CooldownSource =
    | OfSchema(schema: CharacterSchema)
    | OfEntity(entity: CharacterEntity)
    | OfCooldown(cooldown: CooldownSchema)

  /** The expiration each overload passes on. */
  function ExpirationOf(src: CooldownSource): Option<int> {
    match src
    case OfSchema(s) => s.character.cooldownExpiration
    case OfEntity(e) => e.cooldownExpiration
    case OfCooldown(c) => Some(c.expiration)
  }

  /**
   The character and cooldown overloads: a character is run inline exactly
   when its own expiration column is null; a cooldown payload is always
   scheduled at its expiration.
   */
  function DecideFor(src: CooldownSource): (d: Dispatch)
    ensures src.OfEntity? ==> (d.RunInline? <==> src.entity.cooldownExpiration.None?)
    ensures src.OfSchema? ==> (d.RunInline? <==> src.schema.character.cooldownExpiration.None?)
    ensures src.OfCooldown? ==> d == ScheduleAt(src.cooldown.expiration)
    ensures d.ScheduleAt? ==> ExpirationOf(src) == Some(d.at)
  {
    Decide(ExpirationOf(src))
  }
}
